=== FILE: README.md ===
# company_ai orchestration, modelled in Dafny

company_ai is a CrewAI application that plays a small company. A CEO request
given on the command line goes through four crews of LLM agents, one after the
other:

1. the technical crew, which receives the request with surrounding whitespace removed;
2. the finance crew;
3. the compliance crew;
4. the marketing crew.

The flow then writes a Markdown report holding the request and the four answers.
The agents use a set of tools:

- an artifact writer confined to an artifacts directory;
- a heuristic claims checker for marketing copy;
- a web search with Serper or DuckDuckGo, and a page reader;
- fixed-template cost, contract-review and compliance-checklist tools.

The model covers:

- **Flow** (`main.py`): the organization state, the four stages as a linear
  state machine, the report text, the report write (whose OSError is a
  parameter) and the command line.
- **Crews** plus one module per crew: building agents and tasks from the YAML
  configuration, modelled as maps, with the KeyError that each missing entry
  raises; the crew that is built; and its kickoff. The LLM run is a parameter.
- **DocsTools**: `pathlib`'s lexical resolve of `root / relative_path`, the
  textual prefix guard as written, the segment-wise guard it was meant to be,
  and the write.
- **MarketingTools**: the five risky-claim regular expressions, with `\b`, the
  optional suffix with backtracking, and `re.IGNORECASE` case folding.
- **InternetTools**: argument guards and clamps, the timeout read from the
  environment, the assembly of search results from a provider's answer,
  DuckDuckGo redirect unwrapping, and page excerpts. The network and the HTML
  helpers are parameters.
- **FinanceTools** and **LegalTools**: the fixed answers.
- Python helpers the core relies on:
  - `str.strip`, `str.join`, `str.split`, `startswith` and `lower` (**Text**);
  - `str.format` with the single `ceo_request` keyword (**Template**);
  - `int()` on text, and `str()` of an integer (**PyInt**).

## Model

| member | source | states |
|---|---|---|
| Flow.InitialState | src/company_ai/main.py:16-22 | the state kickoff starts from: the request, every output empty, the default report path |
| Flow.RunTechnical | src/company_ai/main.py:28-34 | a blank request raises "CEO request is required." before any crew runs; otherwise only the technical crew runs, on the stripped request; the stage ends without error exactly when that crew answers, and only `technical_output` changes; a crew failure is reported as the technical crew's error |
| Flow.RunFinanceAndCompliance | src/company_ai/main.py:36-44 | finance, then compliance, both on the stored (unstripped) request; a finance failure means compliance never runs, the state is unchanged and the error is finance's; a compliance failure is reported as compliance's error; the stage ends without error exactly when both crews answer; only the two output fields change |
| Flow.RunMarketing | src/company_ai/main.py:46-50 | the marketing crew runs on the stored request; the stage ends without error exactly when it answers, and its failure is reported as marketing's error; only `marketing_output` changes |
| Flow.ReportLines | src/company_ai/main.py:56-76 | the report is exactly sixteen lines |
| Flow.HeaderIndex | src/company_ai/main.py:64-74 | each crew's header sits on report line 5, 8, 11 or 14, after the request and before the last line |
| Flow.LineAt | src/company_ai/main.py:56-76 | every one of the sixteen lines appears verbatim at its start offset in the "\n"-joined report |
| Flow.RequestSection | src/company_ai/main.py:59-62 | the report opens with the title, and the request follows the "## CEO Request" header verbatim, whatever the request holds |
| Flow.CrewSection | src/company_ai/main.py:64-74 | each crew's section carries its header, and the crew's answer follows on the next line verbatim |
| Flow.HeaderAfterRequest | src/company_ai/main.py:61-74 | every crew header starts after the request has ended |
| Flow.HeaderBeforeOutput | src/company_ai/main.py:64-74 | every crew header ends before that crew's answer starts |
| Flow.SectionsInOrder | src/company_ai/main.py:64-74 | sections never overlap: an earlier crew's answer ends before a later crew's header starts |
| Flow.ReportSplits | src/company_ai/main.py:56-76 | when no field holds a line break, splitting the report at "\n" gives back the sixteen lines |
| Flow.FinishFlow | src/company_ai/main.py:46-79 | marketing and then `finalize`: it succeeds exactly when marketing answers and the report write raises nothing; the report goes to the state's path, its text renders the final state, and the path is returned; a write OSError fails the flow with ReportWriteFailed and writes nothing |
| Flow.ContinueFlow | src/company_ai/main.py:36-79 | the runs after the technical stage are a prefix of finance, compliance, marketing; nothing is written on failure, including a failed report write |
| Flow.RunFlow | src/company_ai/main.py:82-85 | at most four crew runs; nothing is written when the flow fails, whether a crew or the report write failed; the default report path is the result on success |
| Flow.FlowCallsInOrder | src/company_ai/main.py:28-50 | the crews run in the fixed order technical, finance, compliance, marketing, each at most once: the runs made are a prefix of the full sequence (that the prefix ends at the first failure is FailureStopsFlow) |
| Flow.FailureStopsFlow | src/company_ai/main.py:28-50 | when the flow fails with a crew's error, that crew made the last run and failed with exactly that error, and every earlier run answered: a failure stops the rest |
| Flow.TechnicalFails | src/company_ai/main.py:33-34 | a failing technical crew is the only run made, and its error is the one the stage reports |
| Flow.ContinueFails | src/company_ai/main.py:36-50 | after answered runs, a failure in the later stages ends the runs with the failing crew's run |
| Flow.RequestRequiredOnlyWhenBlank | src/company_ai/main.py:30-32 | the flow reports a missing request exactly when the stripped request is empty, and then no crew has run |
| Flow.CallsWhenTechnicalStops | src/company_ai/main.py:28-34 | when the technical stage fails, the runs made are a prefix of the full sequence |
| Flow.CallsAfterTechnical | src/company_ai/main.py:36-50 | when the technical stage succeeds, the later runs extend it as a prefix of the full sequence |
| Flow.ContinuePrefix | src/company_ai/main.py:36-50 | after a first run, the later stages add a prefix of the remaining fixed sequence |
| Flow.FlowSucceeds | src/company_ai/main.py:28-79 | the flow completes if and only if the stripped request is non-empty, every crew answers, and `finalize`'s mkdir and write_text raise nothing for the final state's report |
| Flow.FlowCompletes | src/company_ai/main.py:28-79 | when every crew answers and the write succeeds, the flow has run all four crews in order, returns the default path, and wrote the report of its final state there |
| Flow.ReportWriteFails | src/company_ai/main.py:53-79 | when every crew answers but `finalize`'s write raises, all four crews have run, the state holds their answers, nothing is written, and the flow fails with that OSError |
| Flow.FlowOutputs | src/company_ai/main.py:28-50 | when every crew answers, the final state holds each crew's answer in its own field, the request as given, and the default path, whether or not the report write then succeeds |
| Flow.EmptyRequestRunsNoCrew | src/company_ai/main.py:30-32 | an all-whitespace request runs no crew, fails with RequestRequired, writes nothing and leaves the state initial |
| Flow.CallInputs | src/company_ai/main.py:30-48 | the technical crew gets the stripped request; every later crew gets the request as stored |
| Flow.PrefixInputs | src/company_ai/main.py:30-48 | any prefix of the full run sequence passes the stripped request first and the stored request after |
| Flow.ExpectedInputs | src/company_ai/main.py:30-48 | the full run sequence has four runs: the stripped request first, the stored request for the other three |
| Flow.StrippedRequestReachesAll | src/company_ai/main.py:30-48 | a request that is already stripped reaches every crew unchanged |
| Flow.CliMain | src/company_ai/main.py:88-95 | fewer than two argv entries give the usage text `Usage: python -m company_ai.main "CEO request here"` and exit status 1; otherwise the flow runs on the space-joined, stripped arguments; `main` returns 0 with the completion line exactly when the flow succeeds, and otherwise the flow's own error leaves `main` uncaught |
| Flow.CliExitStatus | src/company_ai/main.py:88-95 | from the command line, the exit status is 0 exactly when the joined, stripped arguments are not blank, every crew answers and the report is written |
| Flow.CliCrewsShareRequest | src/company_ai/main.py:88-93 | from the command line, every crew receives the same text: the joined, stripped arguments |
| Crews.BuildAgent | src/company_ai/crews/tech_crew/tech_crew.py:28-37 | `mk`: KeyError for a missing agent or a missing role, goal or backstory; the two flags are true only when configured true; the tools are exactly those given |
| Crews.Lookup | src/company_ai/crews/tech_crew/tech_crew.py:72 | `agents[cfg["agent"]]`: found exactly when the name is on the roster, and then it is that name's agent |
| Crews.FirstMissingRole | src/company_ai/crews/tech_crew/tech_crew.py:39-50 | the first role whose configuration is incomplete: every role before it is configured |
| Crews.RosterMatchesRoles | src/company_ai/crews/tech_crew/tech_crew.py:39-50 | a roster built role by role has the roles' names and tool lists |
| Crews.BuildRoster | src/company_ai/crews/tech_crew/tech_crew.py:39-50 | the dict of agents is built in insertion order, each with the shared tools before its own; it fails exactly when some role is unconfigured, with the first such role's error |
| Crews.BuildTask | src/company_ai/crews/tech_crew/tech_crew.py:66-74 | one Task: the description is formatted with the request, the other fields are copied, and the agent is looked up on the roster; it fails exactly when an entry is missing or unusable |
| Crews.FirstMissingTask | src/company_ai/crews/tech_crew/tech_crew.py:66-75 | the first task key whose configuration is unusable: every key before it is usable |
| Crews.BuildTasks | src/company_ai/crews/tech_crew/tech_crew.py:52-76 | one task per key in order; fails exactly when some key is unusable, with the first such key's error |
| Crews.BuildCrew | src/company_ai/crews/tech_crew/tech_crew.py:78-86 | agents are built before tasks, so a roster error wins; the crew holds the roster's agents in order and the built tasks, and runs sequentially and verbosely |
| Crews.KickoffInputs | src/company_ai/crews/tech_crew/tech_crew.py:89 | the kickoff inputs are exactly `{"ceo_request": request}` |
| Crews.Run | src/company_ai/crews/tech_crew/tech_crew.py:88-90 | `run`: a configuration error is raised before kickoff; otherwise it returns kickoff's answer on the built crew, and a kickoff exception propagates |
| Crews.TasksUseRosterAgents | src/company_ai/crews/tech_crew/tech_crew.py:72-82 | every task's agent is one of the crew's agents and holds the tools of one of the roles |
| Crews.DescriptionRendersRequest | src/company_ai/crews/tech_crew/tech_crew.py:70 | a description written as literal text and `{ceo_request}` fields renders the request in every field |
| TechCrew.BuildAgents | src/company_ai/crews/tech_crew/tech_crew.py:22-50 | the ten agents, with their exact names, order and tool lists, and no internet tool |
| TechCrew.RolesShape | src/company_ai/crews/tech_crew/tech_crew.py:39-50 | the technical roles' names and tool lists |
| TechCrew.RolesOffline | src/company_ai/crews/tech_crew/tech_crew.py:39-50 | no technical role holds an internet tool |
| FinanceCrew.BuildAgents | src/company_ai/crews/finance_crew/finance_crew.py:22-42 | cfo, financial_analyst, cost_controller: the internet tools first, then write_artifact, plus cost_model for the analyst |
| FinanceCrew.RolesShape | src/company_ai/crews/finance_crew/finance_crew.py:38-42 | the finance roles' names and tool lists |
| ComplianceCrew.BuildAgents | src/company_ai/crews/compliance_crew/compliance_crew.py:22-43 | cco, legal_counsel, compliance_analyst: the internet tools first, then write_artifact, plus contract_review or compliance_checklist |
| ComplianceCrew.RolesShape | src/company_ai/crews/compliance_crew/compliance_crew.py:39-43 | the compliance roles' names and tool lists |
| MarketingCrew.BuildAgents | src/company_ai/crews/marketing_crew/marketing_crew.py:22-43 | the four marketing agents: the internet tools first, then write_artifact, except the brand reviewer, which has claims_check |
| MarketingCrew.RolesShape | src/company_ai/crews/marketing_crew/marketing_crew.py:38-43 | the marketing roles' names and tool lists |
| MarketingCrew.ReviewerTools | src/company_ai/crews/marketing_crew/marketing_crew.py:42 | the fourth agent, brand_communications_reviewer, holds claims_check and cannot write artifacts |
| MarketingCrew.WritersTools | src/company_ai/crews/marketing_crew/marketing_crew.py:39-41 | the other three agents write artifacts and do not hold claims_check |
| DocsTools.Render | src/company_ai/tools/docs_tools.py:25 | the text of a segment list is empty only for no segments, and otherwise starts with "/" |
| DocsTools.Step | src/company_ai/tools/docs_tools.py:24 | ".." drops the last segment (not above "/"); any other piece keeps the path as a prefix; a normal path stays normal |
| DocsTools.Walk | src/company_ai/tools/docs_tools.py:24 | resolving pieces keeps a normal path normal |
| DocsTools.Resolve | src/company_ai/tools/docs_tools.py:24 | `(root / rel).resolve()` of a normal root is a normal path |
| DocsTools.WalkStaysBelow | src/company_ai/tools/docs_tools.py:24 | pieces without ".." never leave the starting directory |
| DocsTools.AbsoluteIgnoresRoot | src/company_ai/tools/docs_tools.py:24-25 | an absolute `rel` replaces the root, and the guard compares it against the root as written |
| DocsTools.SafePathAsWritten | src/company_ai/tools/docs_tools.py:22-27 | `_safe_path` as written: it accepts exactly the targets whose text starts with the root's text, and then returns the resolved target; otherwise it raises "Path traversal detected. Write denied." |
| DocsTools.RenderStartsWith | src/company_ai/tools/docs_tools.py:25 | `str(target).startswith(str(root))` holds if and only if the target matches the root up to its last segment and there extends that segment |
| DocsTools.SafePath | src/company_ai/tools/docs_tools.py:22-27 | the intended guard: it accepts exactly the targets inside the root, segment by segment |
| DocsTools.SeparatedPrefix | src/company_ai/tools/docs_tools.py:25 | comparing against the root's text followed by "/" (or equality) holds if and only if the target is inside the root |
| DocsTools.DescendantAccepted | src/company_ai/tools/docs_tools.py:22-27 | a relative path without ".." passes both guards |
| DocsTools.AcceptedAsWritten | src/company_ai/tools/docs_tools.py:22-27 | everything the intended guard accepts, the guard as written accepts too |
| DocsTools.ChecksDisagreeOnSiblings | src/company_ai/tools/docs_tools.py:25 | the two guards disagree exactly on targets that extend the root's last segment, that is, on siblings such as `artifacts_old` |
| DocsTools.ClimbResolves | src/company_ai/tools/docs_tools.py:24 | `../name` resolves to the sibling `name` of the root |
| DocsTools.ClimbOutRejected | src/company_ai/tools/docs_tools.py:22-27 | `../name` with a name not extending the root's last segment is refused by both guards |
| DocsTools.SiblingResolves | src/company_ai/tools/docs_tools.py:24 | `../name/file` resolves to `file` inside the sibling `name` of the root |
| DocsTools.SiblingAccepted | src/company_ai/tools/docs_tools.py:22-27 | `../<root name><suffix>/file` is accepted by the guard as written, although it lies outside the root; the intended guard refuses it |
| DocsTools.WriteTo | src/company_ai/tools/docs_tools.py:31-33 | `write_text` on the root directory itself raises IsADirectoryError; otherwise the content is written and "Artifact written: <path>" is returned |
| DocsTools.WriteArtifact | src/company_ai/tools/docs_tools.py:22-33 | `_run` as written: it writes exactly when the relative path holds no NUL character, the target passes the textual guard and is not the root; it reports the embedded-NUL error, the traversal error or the directory error, in that order; on success it gives the written path, content and message |
| DocsTools.WriteArtifactIntended | src/company_ai/tools/docs_tools.py:22-33 | `_run` with the intended guard: it writes exactly when the relative path holds no NUL character and the target is strictly inside the root |
| DocsTools.WritersAgreeInside | src/company_ai/tools/docs_tools.py:22-33 | for targets inside the root, the writer as written and the intended writer give the same outcome |
| DocsTools.SiblingWritten | src/company_ai/tools/docs_tools.py:25-33 | `_run` as written writes `../<root name><suffix>/file` (names without NUL) outside the artifacts directory; the intended writer refuses it |
| MarketingTools.Fold | src/company_ai/tools/marketing_tools.py:27 | under IGNORECASE, a character compares as a lower-case ASCII letter exactly when it is an ASCII letter or one of the four non-ASCII letters that fold to one |
| MarketingTools.SearchFrom | src/company_ai/tools/marketing_tools.py:27 | `re.search` finds the pattern if and only if it matches at some position |
| MarketingTools.Flags | src/company_ai/tools/marketing_tools.py:27 | the list comprehension keeps, in pattern order and without duplicates, exactly the patterns found |
| MarketingTools.PatternsDistinct | src/company_ai/tools/marketing_tools.py:20-26 | the five pattern strings are distinct |
| MarketingTools.ClaimsCheck | src/company_ai/tools/marketing_tools.py:19-39 | `risk_count` is the number of matched patterns; the matched patterns are exactly those found, in source order; the recommendation is the replace advice exactly when one is found |
| MarketingTools.CaseVariantsIndistinguishable | src/company_ai/tools/marketing_tools.py:27 | ASCII case variants fold alike and are word characters alike |
| MarketingTools.FlagsAgree | src/company_ai/tools/marketing_tools.py:27 | texts on which every pattern is found alike get the same flags |
| MarketingTools.ClaimsCaseInsensitive | src/company_ai/tools/marketing_tools.py:27 | texts that differ only in ASCII letter case get the same report |
| MarketingTools.HundredPercentNeedsWordAfter | src/company_ai/tools/marketing_tools.py:23 | `\b100%\b` matches only where a word character follows the "%", since "%" is not a word character |
| MarketingTools.GluedAlwaysNotFlagged | src/company_ai/tools/marketing_tools.py:24 | "xalways" has no word boundary before "always" and is not flagged |
| MarketingTools.CapitalAlwaysFlagged | src/company_ai/tools/marketing_tools.py:24-27 | "Always on" is flagged, because the search ignores case |
| MarketingTools.GuaranteedFlagged | src/company_ai/tools/marketing_tools.py:21 | "guaranteed" matches the optional "d" |
| MarketingTools.GuaranteesNotFlagged | src/company_ai/tools/marketing_tools.py:21 | "guarantees" has no boundary after either "guarantee" or "guaranteed" |
| InternetTools.Clamp | src/company_ai/tools/internet_tools.py:37 | `max(lo, min(v, hi))` lies in lo..hi, and is v when v is in range |
| InternetTools.TimeoutSeconds | src/company_ai/tools/internet_tools.py:31-37 | the timeout lies in 3..60; unset or unparsable text gives 15 |
| InternetTools.TimeoutOfNumber | src/company_ai/tools/internet_tools.py:31-37 | a decimal number is clamped into 3..60, and kept when in range; a numeral of more than 4300 digits is refused by `int`, so the timeout is 15 |
| InternetTools.ExtractDdgRedirect | src/company_ai/tools/internet_tools.py:40-45 | the first `uddg` value when the key has values, otherwise the URL unchanged |
| InternetTools.GroupQuery | src/company_ai/tools/internet_tools.py:42 | `parse_qs` never maps a key to an empty list |
| InternetTools.GroupQueryFirst | src/company_ai/tools/internet_tools.py:42 | a key is in the parsed query if and only if some pair gives it a non-blank value, and its first value comes from the earliest such pair |
| InternetTools.RedirectFirstUddg | src/company_ai/tools/internet_tools.py:40-45 | on a query of key=value pairs, the redirect is the earliest non-blank `uddg` value, or the URL itself when there is none |
| InternetTools.SearchSerper | src/company_ai/tools/internet_tools.py:85-105 | a provider error propagates; otherwise min(max_results, number of organic items) results in order, with a missing field read as "" |
| InternetTools.SerperMonotone | src/company_ai/tools/internet_tools.py:96 | for the same provider answer, asking for more results only extends the list, and once n covers every organic item nothing changes |
| InternetTools.SearchDuckDuckGo | src/company_ai/tools/internet_tools.py:107-129 | one result per link match, at most max_results, with result i taking snippet i or ""; the url is the unwrapped redirect |
| InternetTools.DuckDuckGoMonotone | src/company_ai/tools/internet_tools.py:121 | asking for more results only extends the list, and once n covers every link match nothing changes |
| InternetTools.Provide | src/company_ai/tools/internet_tools.py:78-81 | Serper exactly when the stripped API key is non-empty, otherwise DuckDuckGo; the results never exceed n |
| InternetTools.InternetSearch | src/company_ai/tools/internet_tools.py:71-83 | a blank query gives the "query cannot be empty" error; otherwise the results never exceed max_results clamped to 1..10, the provider is serper exactly when the key is set, and a provider exception becomes "internet_search failed: ..." with the query |
| InternetTools.EmptyQueryNoSearch | src/company_ai/tools/internet_tools.py:72-74 | a blank query gets the same answer whatever the network would do |
| InternetTools.SearchRequestClamped | src/company_ai/tools/internet_tools.py:76-83 | the provider is asked for 1..10 results with a 3..60 second timeout |
| InternetTools.ExcerptOf | src/company_ai/tools/internet_tools.py:142-161 | the excerpt is the first max_chars characters, with max_chars clamped to 1000..30000, and the full length is reported |
| InternetTools.ReadWebpage | src/company_ai/tools/internet_tools.py:137-163 | a URL failing the case-insensitive http(s) guard is rejected; otherwise a successful fetch gives the excerpt of its readable text (HTML stripped when text/html), and a fetch exception gives "read_webpage failed: " followed by the exception's text, with the URL |
| InternetTools.FetchDecidesPage | src/company_ai/tools/internet_tools.py:142-163 | for an http(s) URL, the page is an excerpt exactly when the fetch (with a 3..60 second timeout) succeeds, and then it carries the content type and the prefix of the readable text at the clamped length; otherwise the error is the exception's text after "read_webpage failed: " |
| InternetTools.RejectedUrlNoFetch | src/company_ai/tools/internet_tools.py:138-140 | a rejected URL is answered without fetching anything |
| InternetTools.HttpUrlIgnoresCase | src/company_ai/tools/internet_tools.py:139 | the scheme guard ignores ASCII letter case |
| InternetTools.BuildInternetTools | src/company_ai/tools/internet_tools.py:166-167 | exactly the two internet tools, search first |
| FinanceTools.CostModel | src/company_ai/tools/finance_tools.py:18-36 | echoes the initiative in USD, with the estimate 50000/90000/150000 and the four fixed drivers |
| FinanceTools.CostModelIgnoresInput | src/company_ai/tools/finance_tools.py:18-36 | only the echoed initiative depends on the input |
| LegalTools.ReviewContract | src/company_ai/tools/legal_tools.py:22-38 | echoes the summary, with risk "medium" and the three fixed concerns and two fixed actions |
| LegalTools.ReviewIgnoresInput | src/company_ai/tools/legal_tools.py:22-38 | only the echoed summary depends on the input |
| LegalTools.Checklist | src/company_ai/tools/legal_tools.py:46-58 | echoes the scope, with the five fixed items, all "pending" |
| LegalTools.ChecklistIgnoresInput | src/company_ai/tools/legal_tools.py:46-58 | only the echoed scope depends on the input |
| Text.LStrip | src/company_ai/main.py:30 | `lstrip` drops exactly the leading whitespace run |
| Text.RStrip | src/company_ai/main.py:30 | `rstrip` drops exactly the trailing whitespace run |
| Text.StripShape | src/company_ai/main.py:30 | `strip` keeps one contiguous run; everything before and after it is whitespace; the run neither starts nor ends with whitespace |
| Text.StripBlank | src/company_ai/main.py:30-31 | `strip` gives "" if and only if the text is all whitespace |
| Text.StripNoop | src/company_ai/main.py:92 | text not starting or ending with whitespace is unchanged |
| Text.StripIdempotent | src/company_ai/main.py:30 | stripping twice is stripping once |
| Text.JoinAt | src/company_ai/main.py:57 | each part sits verbatim at its offset in the joined text |
| Text.OffsetIncreasing | src/company_ai/main.py:57 | a later part starts after an earlier part and its separator end |
| Text.Split | src/company_ai/tools/docs_tools.py:24 | `split` gives at least one piece, and no piece contains the separator |
| Text.JoinSplit | src/company_ai/tools/docs_tools.py:24 | joining the pieces of a split gives back the text, so parsing the relative path into its parts loses nothing |
| Text.SplitJoin | src/company_ai/main.py:57 | splitting a join of separator-free parts gives back the parts, as the report's lines are recovered from the joined text |
| Text.LowerAscii | src/company_ai/tools/internet_tools.py:139 | `lower` on the guard's ASCII prefix: same length, and each character lowered |
| Template.FindClose | src/company_ai/crews/tech_crew/tech_crew.py:70 | the first "}" of the text, or none |
| Template.Format | src/company_ai/crews/tech_crew/tech_crew.py:70 | text without braces formats to itself |
| Template.FormatEscaped | src/company_ai/crews/tech_crew/tech_crew.py:70 | text with its braces doubled formats back to the text itself |
| Template.FormatField | src/company_ai/crews/tech_crew/tech_crew.py:70 | `{ceo_request}` is replaced by the request |
| Template.FormatQuote | src/company_ai/crews/tech_crew/tech_crew.py:70 | a template built from escaped literal text and `{ceo_request}` fields formats to the literal text with the request in each field |
| PyInt.ParseInt | src/company_ai/tools/internet_tools.py:34-36 | `int()` rejects text without a digit; it succeeds exactly when, after trimming `int`'s whitespace and an optional sign, a well-formed digit run of at most 4300 digits remains |
| PyInt.ParseTrimmed | src/company_ai/tools/internet_tools.py:34 | trimmed text parses exactly when, after an optional sign, it is a well-formed digit run of at most 4300 digits |
| PyInt.TrimStart | src/company_ai/tools/internet_tools.py:34 | `int` drops exactly the leading run of its whitespace |
| PyInt.TrimEnd | src/company_ai/tools/internet_tools.py:34 | `int` drops exactly the trailing run of its whitespace |
| PyInt.DigitCount | src/company_ai/tools/internet_tools.py:34 | the digits counted against the 4300-digit limit: at most the text's length, and all of it for a run without underscores |
| PyInt.TrimStartSpaces | src/company_ai/tools/internet_tools.py:34 | a leading run of `int`'s whitespace before non-space text is trimmed and nothing more |
| PyInt.TrimEndSpaces | src/company_ai/tools/internet_tools.py:34 | a trailing run of `int`'s whitespace after non-space text is trimmed and nothing more |
| PyInt.ParseIgnoresSpaces | src/company_ai/tools/internet_tools.py:34 | a numeral surrounded by `int`'s whitespace parses as the numeral alone, to n when it has at most 4300 digits |
| PyInt.SeparatorKept | src/company_ai/tools/internet_tools.py:34-36 | `int("\x1c5")` raises ValueError: U+001C counts for `str.isspace` but `int` does not trim it |
| PyInt.TooManyDigits | src/company_ai/tools/internet_tools.py:34-36 | `int` raises ValueError for a run of 4301 digits |
| PyInt.NatToString | src/company_ai/tools/internet_tools.py:32 | `str(n)` is a well-formed digit run, without underscores, denoting n |
| PyInt.NumeralParts | src/company_ai/tools/internet_tools.py:32-34 | `int` does not trim `str(n)`, and its digit run is the numeral of n's magnitude, with a sign exactly when n is negative |
| PyInt.ParseShow | src/company_ai/tools/internet_tools.py:32-34 | `int(str(n)) == n` while `str(n)` has at most 4300 digits, and `int` refuses longer numerals; so the default "15" parses back to 15 |
| InternetTools.DefaultSearchSize | src/company_ai/tools/internet_tools.py:71-76 | a search with the default `max_results` gives at most five results |
| InternetTools.DefaultExcerptLength | src/company_ai/tools/internet_tools.py:137-151 | with the default `max_chars` the excerpt is the first 12000 characters of the readable text, or all of it when shorter |

## Left out

- YAML loading (`_load_yaml`, `safe_load`) is left out: each crew's configuration is a parameter, given as maps of optional fields.
- CrewAI itself (Agent, Task, Crew, `kickoff` and the LLM calls) is left out: a crew's kickoff is a parameter that returns an answer or raises.
- Flow.RunFlow: CrewAI's `@start`/`@listen` scheduling is modelled as its outcome, a sequential chain. Printing and `SystemExit` are reduced to the message and the exit status. `finalize`'s `mkdir` and `write_text` are one parameter, `writeReport`, which either writes the report or raises an OSError. The file system they act on is not modelled, and a failure is taken to leave nothing written, which ignores a partly written file.
- The network, `urlopen`, the request headers and the environment are left out. They are parameters: provider answers, the fetch, and the two environment variables.
- `_strip_html`, `html.unescape`, `urlparse`/`parse_qs` and the two DuckDuckGo scraping regexes are left out as parameters, because they are regular-expression and HTML processing outside the core. `GroupQuery` models only the grouping step of `parse_qs`.
- JSON rendering (`json.dumps`, `indent=2`) is left out: every tool answer is the datatype that is serialized.
- `ci_tools.py` and `repo_tools.py` are not part of this model. Their tools appear only as names on the agents' tool lists.
- DocsTools.WriteArtifact: `mkdir(parents=True)`, symbolic links and file-system state are left out. Resolution is lexical, and only the artifacts directory itself is known to be a directory. A target that already exists as some other directory, or whose parent is a file, is not modelled. A relative path holding a NUL character fails with the ValueError "embedded null byte" before the guard runs, as `resolve()` (its `os.lstat`) raises on Python 3.13. On earlier versions `resolve()` lets such a path through, and it is `write_text`'s `open` (or `mkdir`) that raises; there a NUL path the guard refuses gets the traversal error instead. Nothing is written in any of these cases.
- DocsTools.Resolve: the artifacts root is a parameter, because `Path(__file__)` depends on the installation.
- MarketingTools.ClaimsCheck: the contract holds for text whose letters are Latin-1 (plus the four non-ASCII letters that IGNORECASE folds to ASCII). Python's `\w` covers every Unicode alphanumeric character, so "ωalways" is not flagged by Python while the model flags it, and "100%ж" is flagged by Python while the model does not flag it.
- MarketingTools.HundredPercentNeedsWordAfter: it uses the same Latin-1 `IsWordChar`, so it is stated for Latin-1 text only.
- MarketingTools.ClaimsCaseInsensitive: it covers ASCII case only; full Unicode case folding is left out.
- Template.Format: only `{ceo_request}`, `{{` and `}}` are modelled. A conversion (`{ceo_request!s}`, `{ceo_request!r}`), a format spec (`{ceo_request:>9}`) or an index (`{ceo_request[0]}`) is an error in the model, although Python's `str.format` accepts them.
- PyInt.ParseInt: only ASCII digits are read. Python's `int()` also accepts other Unicode decimal digits, so `int("６０")` is 60 in Python. The 4300-digit limit is that of Python 3.11 and later (also the `PYTHONINTMAXSTRDIGITS` default). Earlier versions have no limit, and setting the limit to another value is not modelled.
- PyInt.NatToString: it renders every n. Python's `str(n)` raises ValueError for an integer of more than 4300 digits (Python 3.11 and later). The model applies it only to the constant 15 and in the statements of TimeoutOfNumber and ParseShow.
- PyInt.ParseShow: for more than 4300 digits it states that `int` refuses the numeral. In Python, `str(n)` would already have raised before `int` is reached.
- InternetTools.TimeoutSeconds: because of the PyInt.ParseInt limit, a timeout written in non-ASCII digits such as "６０" falls back to 15 in the model, while Python gives 60. A value of more than 4300 digits falls back to 15, as it does from Python 3.11 on.
- InternetTools.TimeoutOfNumber: it is stated for `str(n)` as text. Its case of more than 4300 digits (a timeout of 15) holds from Python 3.11 on.

## Findings

| source | as written | input that shows it | evidently intended | confidence | as-written member | corrected member |
|---|---|---|---|---|---|---|
| src/company_ai/tools/docs_tools.py:25 | `_safe_path` tests `str(target).startswith(str(root))`, a character-wise prefix test | root `/app/src/company_ai/artifacts`, relative path `../artifacts_old/notes.md`: the target `/app/src/company_ai/artifacts_old/notes.md` starts with the root's text, so `_run` writes outside the artifacts directory | accept only targets inside the root, segment by segment (for example `target == root or target.is_relative_to(root)`) | not executed | DocsTools.WriteArtifact, DocsTools.SafePathAsWritten, DocsTools.SiblingAccepted, DocsTools.SiblingWritten | DocsTools.WriteArtifactIntended, DocsTools.SafePath, DocsTools.SeparatedPrefix |

=== FILE: compliance_crew.dfy ===
/** The compliance crew: three agents, each with the two internet tools in front
    of its role tools, and four tasks from scope definition to the release gate. */
module ComplianceCrew {
  import opened Wrappers
  import opened Tools
  import opened Crews
  import InternetTools

  const Roles: seq<Role> := [
    Role("cco", [WriteArtifact]),
    Role("legal_counsel", [WriteArtifact, ContractReview]),
    Role("compliance_analyst", [WriteArtifact, ComplianceChecklist])
  ]

  const TaskKeys: seq<string> := [
    "compliance_scope_definition",
    "legal_review",
    "compliance_gap_analysis",
    "compliance_release_gate"
  ]

  const Spec: CrewSpec := CrewSpec(Roles, InternetTools.BuildInternetTools(), TaskKeys)

  /** `_build_agents`: `build_internet_tools()` goes in front of every role's tools. */
  function BuildAgents(agents: map<string, AgentCfg>): (r: Result<Roster, CrewError>)
    ensures r.Success? <==> forall i :: 0 <= i < |Roles| ==> AgentConfigured(agents, Roles[i].name)
    ensures r.Success? ==> Names(r.value) == ["cco", "legal_counsel", "compliance_analyst"]
    ensures r.Success? ==> ToolLists(r.value) == [
      [InternetSearch, ReadWebpage, WriteArtifact],
      [InternetSearch, ReadWebpage, WriteArtifact, ContractReview],
      [InternetSearch, ReadWebpage, WriteArtifact, ComplianceChecklist]]
    ensures r.Success? ==> forall i :: 0 <= i < |r.value| ==>
      |r.value[i].1.tools| >= 2 && r.value[i].1.tools[..2] == InternetTools.BuildInternetTools()
  {
    RolesShape();
    BuildRoster(agents, Roles, InternetTools.BuildInternetTools())
  }

  lemma RolesShape()
    ensures RoleNames(Roles) == ["cco", "legal_counsel", "compliance_analyst"]
    ensures forall i :: 0 <= i < |Roles| ==>
      RoleTools(InternetTools.BuildInternetTools(), Roles)[i][..2] == InternetTools.BuildInternetTools()
    ensures RoleTools(InternetTools.BuildInternetTools(), Roles) == [
      [InternetSearch, ReadWebpage, WriteArtifact],
      [InternetSearch, ReadWebpage, WriteArtifact, ContractReview],
      [InternetSearch, ReadWebpage, WriteArtifact, ComplianceChecklist]]
  {
    var shared := InternetTools.BuildInternetTools();
    assert shared == [Tool.InternetSearch, Tool.ReadWebpage];
    assert shared + [Tool.WriteArtifact] == [Tool.InternetSearch, Tool.ReadWebpage, Tool.WriteArtifact];
    assert shared + [Tool.WriteArtifact, Tool.ContractReview] == [Tool.InternetSearch, Tool.ReadWebpage, Tool.WriteArtifact, Tool.ContractReview];
    assert shared + [Tool.WriteArtifact, Tool.ComplianceChecklist] == [Tool.InternetSearch, Tool.ReadWebpage, Tool.WriteArtifact, Tool.ComplianceChecklist];
  }
}

=== FILE: crews.dfy ===
/** What the four crew classes share: each reads an agents mapping and a tasks
    mapping (the two YAML files, given here as maps), builds a roster of named
    agents with fixed tool lists, builds the tasks in a fixed key order with the
    request substituted into each description, and hands a sequential crew to
    `kickoff`. The four crews differ only in the constants of a `CrewSpec`.

    A key missing from a YAML mapping is `None` in the configuration records;
    indexing it raises KeyError in the original, a `CrewError` here. */
module Crews {
  import opened Wrappers
  import opened Template
  import opened Tools

  /** One entry of agents.yaml. */
  datatype AgentCfg = AgentCfg(
    role: Option<string>,
    goal: Option<string>,
    backstory: Option<string>,
    allowDelegation: Option<bool>,
    verbose: Option<bool>)

  /** One entry of tasks.yaml. */
  datatype TaskCfg = TaskCfg(
    description: Option<string>,
    expectedOutput: Option<string>,
    agent: Option<string>,
    outputFile: Option<string>)

  /** The two YAML files of one crew, as loaded. */
  datatype Config = Config(agents: map<string, AgentCfg>, tasks: map<string, TaskCfg>)

  datatype Agent = Agent(
    role: string,
    goal: string,
    backstory: string,
    allowDelegation: bool,
    verbose: bool,
    tools: seq<Tool>)

  datatype Task = Task(description: string, expectedOutput: string, agent: Agent, outputFile: string)

  datatype Process = Sequential

  datatype Crew = Crew(agents: seq<Agent>, tasks: seq<Task>, process: Process, verbose: bool)

  /** The KeyError (or format error) building a crew can raise, with the key
      that was missing, or the exception `kickoff` itself raised (an LLM or
      tool failure inside crewai), which `run` does not catch. */
  datatype CrewError =
    | MissingAgent(name: string)
    | MissingAgentField(name: string, field: string)
    | MissingTask(key: string)
    | MissingTaskField(key: string, field: string)
    | UnknownAgent(key: string, agent: string)
    | BadTemplate(key: string, error: FormatError)
    | KickoffFailed(message: string)

  /** A roster entry of `_build_agents`: the agent's name and its role tools. */
  datatype Role = Role(name: string, tools: seq<Tool>)

  /** The constants that make one crew: its roster in insertion order, the tools
      put in front of every agent's role tools, and its task keys in order. */
  datatype CrewSpec = CrewSpec(roles: seq<Role>, sharedTools: seq<Tool>, taskKeys: seq<string>)

  /** `_build_agents`'s dict: names with their agents, in insertion order. */
  type Roster = seq<(string, Agent)>

  /** A kickoff: the crew and its `inputs` mapping to the crew's final output,
      or to the message of the exception it raised. */
  type Kickoff = (Crew, map<string, string>) -> Result<string, string>

  /** The outcome of one crew's `run`, as the flow sees it. */
  type CrewRun = string -> Result<string, CrewError>

  function RoleNames(roles: seq<Role>): (r: seq<string>)
    ensures |r| == |roles| && forall i :: 0 <= i < |roles| ==> r[i] == roles[i].name
  {
    seq(|roles|, i requires 0 <= i < |roles| => roles[i].name)
  }

  /** The tool list each role's agent receives: the shared tools, then its own. */
  function RoleTools(shared: seq<Tool>, roles: seq<Role>): (r: seq<seq<Tool>>)
    ensures |r| == |roles| && forall i :: 0 <= i < |roles| ==> r[i] == shared + roles[i].tools
  {
    seq(|roles|, i requires 0 <= i < |roles| => shared + roles[i].tools)
  }

  function Names(roster: Roster): (r: seq<string>)
    ensures |r| == |roster| && forall i :: 0 <= i < |roster| ==> r[i] == roster[i].0
  {
    seq(|roster|, i requires 0 <= i < |roster| => roster[i].0)
  }

  /** Each agent's tool list, in roster order. */
  function ToolLists(roster: Roster): (r: seq<seq<Tool>>)
    ensures |r| == |roster| && forall i :: 0 <= i < |roster| ==> r[i] == roster[i].1.tools
  {
    seq(|roster|, i requires 0 <= i < |roster| => roster[i].1.tools)
  }

  /** `list(agents.values())`. */
  function Values(roster: Roster): (r: seq<Agent>)
    ensures |r| == |roster| && forall i :: 0 <= i < |roster| ==> r[i] == roster[i].1
  {
    seq(|roster|, i requires 0 <= i < |roster| => roster[i].1)
  }

  /** `agents[name]`: the agent registered first under `name`. */
  function Lookup(roster: Roster, name: string): (r: Option<Agent>)
    ensures r.Some? <==> name in Names(roster)
    ensures r.Some? ==> (name, r.value) in roster
    decreases |roster|
  {
    if |roster| == 0 then None
    else if roster[0].0 == name then Some(roster[0].1)
    else
      var r := Lookup(roster[1..], name);
      assert Names(roster) == [roster[0].0] + Names(roster[1..]);
      r
  }

  /** The agents mapping has everything `mk(name, …)` indexes. */
  predicate AgentConfigured(agents: map<string, AgentCfg>, name: string) {
    && name in agents
    && agents[name].role.Some?
    && agents[name].goal.Some?
    && agents[name].backstory.Some?
  }

  /** `mk(name, tools)`: the flags default to False when absent. */
  function BuildAgent(agents: map<string, AgentCfg>, name: string, tools: seq<Tool>): (r: Result<Agent, CrewError>)
    ensures r.Success? <==> AgentConfigured(agents, name)
    ensures r.Success? ==>
      && r.value.role == agents[name].role.value
      && r.value.goal == agents[name].goal.value
      && r.value.backstory == agents[name].backstory.value
      && r.value.tools == tools
      && (r.value.allowDelegation <==> agents[name].allowDelegation == Some(true))
      && (r.value.verbose <==> agents[name].verbose == Some(true))
    ensures r.Failure? ==>
      || (name !in agents && r.error == MissingAgent(name))
      || (name in agents && r.error.MissingAgentField? && r.error.name == name)
  {
    if name !in agents then Failure(MissingAgent(name))
    else
      var cfg := agents[name];
      if cfg.role.None? then Failure(MissingAgentField(name, "role"))
      else if cfg.goal.None? then Failure(MissingAgentField(name, "goal"))
      else if cfg.backstory.None? then Failure(MissingAgentField(name, "backstory"))
      else
        Success(Agent(
          cfg.role.value, cfg.goal.value, cfg.backstory.value,
          cfg.allowDelegation.ValueOr(false), cfg.verbose.ValueOr(false), tools))
  }

  /** Every role of the roster is configured. */
  predicate RolesConfigured(agents: map<string, AgentCfg>, roles: seq<Role>) {
    forall i :: 0 <= i < |roles| ==> AgentConfigured(agents, roles[i].name)
  }

  /** The position of the first role whose agent is not configured, or the
      number of roles when every one is. */
  function FirstMissingRole(agents: map<string, AgentCfg>, roles: seq<Role>): (i: nat)
    ensures i <= |roles|
    ensures RolesConfigured(agents, roles[..i])
    ensures i < |roles| ==> !AgentConfigured(agents, roles[i].name)
    decreases |roles|
  {
    if |roles| == 0 || !AgentConfigured(agents, roles[0].name) then 0
    else
      var i := FirstMissingRole(agents, roles[1..]);
      assert roles[..i + 1] == [roles[0]] + roles[1..][..i];
      1 + i
  }

  /** A roster whose entries are the roles' built agents, in order, carries
      the roles' names and tool lists. */
  lemma RosterMatchesRoles(agents: map<string, AgentCfg>, roles: seq<Role>, shared: seq<Tool>, roster: Roster)
    requires |roster| == |roles|
    requires forall i :: 0 <= i < |roles| ==> roster[i].0 == roles[i].name
    requires forall i :: 0 <= i < |roles| ==> BuildAgent(agents, roles[i].name, shared + roles[i].tools) == Success(roster[i].1)
    ensures Names(roster) == RoleNames(roles)
    ensures ToolLists(roster) == RoleTools(shared, roles)
  {
    forall i | 0 <= i < |roles|
      ensures ToolLists(roster)[i] == RoleTools(shared, roles)[i]
    {
      assert roster[i].1.tools == shared + roles[i].tools;
    }
  }

  /** `_build_agents`: one agent per role, in order, each with the shared tools
      followed by its role tools; the first unconfigured role raises. */
  function BuildRoster(agents: map<string, AgentCfg>, roles: seq<Role>, shared: seq<Tool>): (r: Result<Roster, CrewError>)
    ensures r.Success? <==> RolesConfigured(agents, roles)
    ensures r.Success? ==>
      && Names(r.value) == RoleNames(roles)
      && ToolLists(r.value) == RoleTools(shared, roles)
      && forall i :: 0 <= i < |roles| ==> BuildAgent(agents, roles[i].name, shared + roles[i].tools) == Success(r.value[i].1)
    ensures r.Failure? ==>
      var i := FirstMissingRole(agents, roles);
      && i < |roles|
      && r.error == BuildAgent(agents, roles[i].name, shared + roles[i].tools).error
    decreases |roles|
  {
    if |roles| == 0 then Success([])
    else
      var agent :- BuildAgent(agents, roles[0].name, shared + roles[0].tools);
      RolesShift(agents, roles);
      var rest := BuildRoster(agents, roles[1..], shared);
      if rest.Failure? then Failure(rest.error)
      else
        RosterCons(agents, roles, shared, agent, rest.value);
        Success([(roles[0].name, agent)] + rest.value)
  }

  /** Past a configured first role, the roles are configured as the rest
      are, and the first missing one is found one place later. */
  lemma RolesShift(agents: map<string, AgentCfg>, roles: seq<Role>)
    requires |roles| > 0 && AgentConfigured(agents, roles[0].name)
    ensures FirstMissingRole(agents, roles) == 1 + FirstMissingRole(agents, roles[1..])
    ensures RolesConfigured(agents, roles) <==> RolesConfigured(agents, roles[1..])
    ensures forall i :: 0 <= i < |roles| - 1 ==> roles[1..][i] == roles[i + 1]
  {
    RestConfigured(agents, roles);
  }

  lemma RestConfigured(agents: map<string, AgentCfg>, roles: seq<Role>)
    requires |roles| > 0 && AgentConfigured(agents, roles[0].name)
    ensures RolesConfigured(agents, roles) <==> RolesConfigured(agents, roles[1..])
  {
    if RolesConfigured(agents, roles[1..]) {
      forall i | 1 <= i < |roles|
        ensures AgentConfigured(agents, roles[i].name)
      {
        assert roles[i] == roles[1..][i - 1];
      }
    }
  }

  /** The first role's agent in front of the rest's roster is the roster of
      all the roles. */
  lemma RosterCons(agents: map<string, AgentCfg>, roles: seq<Role>, shared: seq<Tool>, agent: Agent, rest: Roster)
    requires |roles| > 0
    requires BuildAgent(agents, roles[0].name, shared + roles[0].tools) == Success(agent)
    requires Names(rest) == RoleNames(roles[1..])
    requires forall i :: 0 <= i < |roles| - 1 ==>
      BuildAgent(agents, roles[1..][i].name, shared + roles[1..][i].tools) == Success(rest[i].1)
    ensures
      var r := [(roles[0].name, agent)] + rest;
      && Names(r) == RoleNames(roles)
      && ToolLists(r) == RoleTools(shared, roles)
      && forall i :: 0 <= i < |roles| ==> BuildAgent(agents, roles[i].name, shared + roles[i].tools) == Success(r[i].1)
  {
    var r := [(roles[0].name, agent)] + rest;
    forall i | 1 <= i < |roles|
      ensures r[i].0 == roles[i].name
      ensures BuildAgent(agents, roles[i].name, shared + roles[i].tools) == Success(r[i].1)
    {
      assert roles[i] == roles[1..][i - 1] && r[i] == rest[i - 1];
      assert Names(rest)[i - 1] == rest[i - 1].0;
    }
    RosterMatchesRoles(agents, roles, shared, r);
  }

  /** The tasks mapping has everything `_build_tasks` reads for `key`, the
      description template formats, and the agent it names is on the roster. */
  predicate TaskConfigured(tasks: map<string, TaskCfg>, agentNames: seq<string>, key: string, request: string) {
    && key in tasks
    && tasks[key].description.Some?
    && Format(tasks[key].description.value, request).Success?
    && tasks[key].expectedOutput.Some?
    && tasks[key].agent.Some?
    && tasks[key].agent.value in agentNames
    && tasks[key].outputFile.Some?
  }

  /** One `Task(...)` of `_build_tasks`, its keyword arguments evaluated left to
      right. */
  function BuildTask(tasks: map<string, TaskCfg>, roster: Roster, key: string, request: string): (r: Result<Task, CrewError>)
    ensures r.Success? <==> TaskConfigured(tasks, Names(roster), key, request)
    ensures r.Success? ==>
      && r.value.description == Format(tasks[key].description.value, request).value
      && r.value.expectedOutput == tasks[key].expectedOutput.value
      && Lookup(roster, tasks[key].agent.value) == Some(r.value.agent)
      && r.value.outputFile == tasks[key].outputFile.value
    ensures r.Failure? && key !in tasks ==> r.error == MissingTask(key)
    ensures r.Failure? ==>
      && (r.error.MissingTask? || r.error.MissingTaskField? || r.error.UnknownAgent? || r.error.BadTemplate?)
      && r.error.key == key
  {
    if key !in tasks then Failure(MissingTask(key))
    else
      var cfg := tasks[key];
      if cfg.description.None? then Failure(MissingTaskField(key, "description"))
      else
        match Format(cfg.description.value, request)
        case Failure(e) => Failure(BadTemplate(key, e))
        case Success(description) =>
          if cfg.expectedOutput.None? then Failure(MissingTaskField(key, "expected_output"))
          else if cfg.agent.None? then Failure(MissingTaskField(key, "agent"))
          else
            match Lookup(roster, cfg.agent.value)
            case None => Failure(UnknownAgent(key, cfg.agent.value))
            case Some(agent) =>
              if cfg.outputFile.None? then Failure(MissingTaskField(key, "output_file"))
              else Success(Task(description, cfg.expectedOutput.value, agent, cfg.outputFile.value))
  }

  predicate TasksConfigured(tasks: map<string, TaskCfg>, agentNames: seq<string>, keys: seq<string>, request: string) {
    forall i :: 0 <= i < |keys| ==> TaskConfigured(tasks, agentNames, keys[i], request)
  }

  /** The position of the first key that is not fully configured, or the
      number of keys when every one is. */
  function FirstMissingTask(tasks: map<string, TaskCfg>, agentNames: seq<string>, keys: seq<string>, request: string): (i: nat)
    ensures i <= |keys|
    ensures TasksConfigured(tasks, agentNames, keys[..i], request)
    ensures i < |keys| ==> !TaskConfigured(tasks, agentNames, keys[i], request)
    decreases |keys|
  {
    if |keys| == 0 || !TaskConfigured(tasks, agentNames, keys[0], request) then 0
    else
      var i := FirstMissingTask(tasks, agentNames, keys[1..], request);
      assert keys[..i + 1] == [keys[0]] + keys[1..][..i];
      1 + i
  }

  /** `_build_tasks`: one task per key, in key order; the first key that is not
      fully configured raises. */
  function BuildTasks(tasks: map<string, TaskCfg>, roster: Roster, keys: seq<string>, request: string): (r: Result<seq<Task>, CrewError>)
    ensures r.Success? <==> TasksConfigured(tasks, Names(roster), keys, request)
    ensures r.Success? ==>
      && |r.value| == |keys|
      && forall i :: 0 <= i < |keys| ==> BuildTask(tasks, roster, keys[i], request) == Success(r.value[i])
    ensures r.Failure? ==>
      var i := FirstMissingTask(tasks, Names(roster), keys, request);
      && i < |keys|
      && r.error == BuildTask(tasks, roster, keys[i], request).error
    decreases |keys|
  {
    if |keys| == 0 then Success([])
    else
      var task :- BuildTask(tasks, roster, keys[0], request);
      TasksShift(tasks, Names(roster), keys, request);
      var rest := BuildTasks(tasks, roster, keys[1..], request);
      if rest.Failure? then Failure(rest.error)
      else
        TasksCons(tasks, roster, keys, request, task, rest.value);
        Success([task] + rest.value)
  }

  /** Past a configured first key, the keys are configured as the rest are,
      and the first missing one is found one place later. */
  lemma TasksShift(tasks: map<string, TaskCfg>, agentNames: seq<string>, keys: seq<string>, request: string)
    requires |keys| > 0 && TaskConfigured(tasks, agentNames, keys[0], request)
    ensures FirstMissingTask(tasks, agentNames, keys, request) == 1 + FirstMissingTask(tasks, agentNames, keys[1..], request)
    ensures TasksConfigured(tasks, agentNames, keys, request) <==> TasksConfigured(tasks, agentNames, keys[1..], request)
    ensures forall i :: 0 <= i < |keys| - 1 ==> keys[1..][i] == keys[i + 1]
  {
    if TasksConfigured(tasks, agentNames, keys[1..], request) {
      forall i | 1 <= i < |keys|
        ensures TaskConfigured(tasks, agentNames, keys[i], request)
      {
        assert keys[i] == keys[1..][i - 1];
      }
    }
  }

  /** The first key's task in front of the rest's tasks are the tasks of all
      the keys. */
  lemma TasksCons(tasks: map<string, TaskCfg>, roster: Roster, keys: seq<string>, request: string, task: Task, rest: seq<Task>)
    requires |keys| > 0
    requires BuildTask(tasks, roster, keys[0], request) == Success(task)
    requires |rest| == |keys| - 1
    requires forall i :: 0 <= i < |keys| - 1 ==> BuildTask(tasks, roster, keys[1..][i], request) == Success(rest[i])
    ensures forall i :: 0 <= i < |keys| ==> BuildTask(tasks, roster, keys[i], request) == Success(([task] + rest)[i])
  {
    var r := [task] + rest;
    forall i | 1 <= i < |keys|
      ensures BuildTask(tasks, roster, keys[i], request) == Success(r[i])
    {
      assert keys[i] == keys[1..][i - 1] && r[i] == rest[i - 1];
    }
  }

  /** Everything building the crew reads is present and well formed. */
  predicate CrewConfigured(config: Config, spec: CrewSpec, request: string) {
    && RolesConfigured(config.agents, spec.roles)
    && TasksConfigured(config.tasks, RoleNames(spec.roles), spec.taskKeys, request)
  }

  /** `crew(ceo_request)`: agents are built before tasks, so a roster error is
      the one raised when both are wrong. */
  function BuildCrew(config: Config, spec: CrewSpec, request: string): (r: Result<Crew, CrewError>)
    ensures r.Success? <==> CrewConfigured(config, spec, request)
    ensures !RolesConfigured(config.agents, spec.roles) ==> r == Failure(BuildRoster(config.agents, spec.roles, spec.sharedTools).error)
    ensures r.Success? ==>
      var roster := BuildRoster(config.agents, spec.roles, spec.sharedTools).value;
      && r.value.agents == Values(roster)
      && |r.value.agents| == |spec.roles|
      && BuildTasks(config.tasks, roster, spec.taskKeys, request) == Success(r.value.tasks)
      && |r.value.tasks| == |spec.taskKeys|
      && r.value.process == Sequential
      && r.value.verbose
  {
    var roster :- BuildRoster(config.agents, spec.roles, spec.sharedTools);
    var tasks :- BuildTasks(config.tasks, roster, spec.taskKeys, request);
    Success(Crew(Values(roster), tasks, Sequential, true))
  }

  /** The `inputs` every crew's `run` passes to `kickoff`. */
  function KickoffInputs(request: string): (m: map<string, string>)
    ensures m.Keys == {"ceo_request"} && m["ceo_request"] == request
  {
    map["ceo_request" := request]
  }

  /** `run(ceo_request)`: the crew's output, or the KeyError building it
      raised, or the exception `kickoff` raised; kickoff runs only on a crew
      that was built. */
  function Run(config: Config, spec: CrewSpec, kickoff: Kickoff, request: string): (r: Result<string, CrewError>)
    ensures !CrewConfigured(config, spec, request) ==> r == Failure(BuildCrew(config, spec, request).error)
    ensures CrewConfigured(config, spec, request) ==>
      var out := kickoff(BuildCrew(config, spec, request).value, KickoffInputs(request));
      && (r.Success? <==> out.Success?)
      && (r.Success? ==> r.value == out.value)
      && (r.Failure? ==> r.error == KickoffFailed(out.error))
  {
    var crew :- BuildCrew(config, spec, request);
    match kickoff(crew, KickoffInputs(request))
    case Success(out) => Success(out)
    case Failure(e) => Failure(KickoffFailed(e))
  }

  /** Every task of a built crew is bound to an agent of that crew, and the
      agent's tools are the shared tools followed by the tools of its role. */
  lemma {:induction false} TasksUseRosterAgents(config: Config, spec: CrewSpec, request: string, i: nat)
    requires BuildCrew(config, spec, request).Success?
    requires i < |spec.taskKeys|
    ensures
      var crew := BuildCrew(config, spec, request).value;
      && crew.tasks[i].agent in crew.agents
      && exists j :: 0 <= j < |spec.roles| && crew.tasks[i].agent.tools == spec.sharedTools + spec.roles[j].tools
  {
    var crew := BuildCrew(config, spec, request).value;
    var roster := BuildRoster(config.agents, spec.roles, spec.sharedTools).value;
    var key := spec.taskKeys[i];
    assert BuildTask(config.tasks, roster, key, request) == Success(crew.tasks[i]);
    var name := config.tasks[key].agent.value;
    assert Lookup(roster, name) == Some(crew.tasks[i].agent);
    var j :| 0 <= j < |roster| && roster[j] == (name, crew.tasks[i].agent);
    assert crew.agents[j] == roster[j].1;
    assert BuildAgent(config.agents, spec.roles[j].name, spec.sharedTools + spec.roles[j].tools) == Success(roster[j].1);
  }

  /** A description template written as `Quote(pieces)` yields the text it
      stands for with the request in place of each `{ceo_request}`. */
  lemma DescriptionRendersRequest(tasks: map<string, TaskCfg>, roster: Roster, key: string, request: string, pieces: seq<Piece>)
    requires BuildTask(tasks, roster, key, request).Success?
    requires tasks[key].description == Some(Quote(pieces))
    ensures BuildTask(tasks, roster, key, request).value.description == Render(pieces, request)
  {
    FormatQuote(pieces, request);
  }
}

=== FILE: docs_tools.dfy ===
/** The artifact writer of docs_tools.py: `root / relative_path` is resolved
    (lexically: empty and `.` segments vanish, `..` drops the last segment),
    and the write is refused unless the resolved path's text starts with the
    root's text. That textual test also admits a sibling directory whose name
    extends the root's last segment. `WriteArtifact` is the writer as
    written; `SafePath` and `WriteArtifactIntended` are the check and the
    writer as evidently intended (the target is the root or lies below it). */
module DocsTools {
  import opened Wrappers
  import opened Text

  const TraversalMessage: string := "Path traversal detected. Write denied."

  /** An absolute path, as its segments below `/`. */
  type Segments = seq<string>

  /** A segment of a resolved path. */
  predicate IsSegment(x: string) {
    x != "" && x != "." && x != ".." && '/' !in x
  }

  predicate IsNormal(p: Segments) {
    forall i :: 0 <= i < |p| ==> IsSegment(p[i])
  }

  /** `/a/b` for `[a, b]`; nothing for no segments. */
  function Render(p: Segments): (r: string)
    ensures p == [] <==> r == []
    ensures p != [] ==> r[0] == '/'
    decreases |p|
  {
    if p == [] then "" else "/" + p[0] + Render(p[1..])
  }

  /** `str(path)` of a resolved path: the file-system root alone is `/`. */
  function PathText(p: Segments): (r: string)
    ensures |r| >= 1 && r[0] == '/'
  {
    if p == [] then "/" else Render(p)
  }

  /** One piece of the relative path: empty and `.` pieces vanish, `..`
      drops the last segment (and stays put at `/`), anything else is
      appended. */
  function Step(p: Segments, piece: string): (r: Segments)
    ensures piece == ".." ==> r == if p == [] then [] else p[..|p| - 1]
    ensures piece != ".." ==> |p| <= |r| && r[..|p|] == p
    ensures IsNormal(p) && '/' !in piece ==> IsNormal(r)
  {
    if piece == "" || piece == "." then p
    else if piece == ".." then (if p == [] then [] else p[..|p| - 1])
    else p + [piece]
  }

  /** The pieces of a relative path applied in order. */
  function Walk(p: Segments, pieces: seq<string>): (r: Segments)
    ensures IsNormal(p) && (forall i :: 0 <= i < |pieces| ==> '/' !in pieces[i]) ==> IsNormal(r)
    decreases |pieces|
  {
    if pieces == [] then p
    else
      Walk(Step(p, pieces[0]), pieces[1..])
  }

  predicate IsAbsolute(rel: string) {
    |rel| > 0 && rel[0] == '/'
  }

  /** `(root / rel).resolve()` with no symbolic links: an absolute `rel`
      replaces the root. */
  function Resolve(root: Segments, rel: string): (r: Segments)
    ensures IsNormal(root) ==> IsNormal(r)
  {
    Walk(if IsAbsolute(rel) then [] else root, Split(rel, '/'))
  }

  /** The target lies in the root directory or below it. */
  predicate Inside(t: Segments, root: Segments) {
    |root| <= |t| && t[..|root|] == root
  }

  /** What the textual prefix test admits: the target agrees with the root up
      to its last segment, and there it extends the root's last segment. */
  predicate TextuallyUnder(t: Segments, root: Segments)
    requires root != []
  {
    var n := |root|;
    && n <= |t|
    && t[..n - 1] == root[..n - 1]
    && StartsWith(t[n - 1], root[n - 1])
  }

  /** `_safe_path` as written: the prefix test on the paths' text. */
  function SafePathAsWritten(root: Segments, rel: string): (r: Result<Segments, string>)
    requires IsNormal(root) && root != []
    ensures r.Success? <==> TextuallyUnder(Resolve(root, rel), root)
    ensures r.Success? ==> r.value == Resolve(root, rel)
    ensures r.Failure? ==> r.error == TraversalMessage
  {
    var target := Resolve(root, rel);
    RenderStartsWith(target, root);
    if StartsWith(PathText(target), PathText(root)) then Success(target)
    else Failure(TraversalMessage)
  }

  /** `_safe_path` as evidently intended: the target is the root itself, or
      its text continues the root's text with a separator. */
  function SafePath(root: Segments, rel: string): (r: Result<Segments, string>)
    requires IsNormal(root) && root != []
    ensures r.Success? <==> Inside(Resolve(root, rel), root)
    ensures r.Success? ==> r.value == Resolve(root, rel)
    ensures r.Failure? ==> r.error == TraversalMessage
  {
    var target := Resolve(root, rel);
    SeparatedPrefix(target, root);
    if target == root || StartsWith(PathText(target), PathText(root) + "/") then Success(target)
    else Failure(TraversalMessage)
  }

  /** What `_run` writes and reports. */
  datatype ArtifactWrite = ArtifactWrite(path: string, content: string, message: string)

  /** Why `_run` raised: the ValueError `resolve()` raises for a path holding
      a NUL character, the guard's ValueError, or the IsADirectoryError
      `write_text` raises when the target is the artifacts directory itself. */
  datatype WriteError =
    | EmbeddedNull
    | Traversal(message: string)
    | IsADirectory(path: string)

  /** `relative_path` holds a NUL character, which no file-system call accepts. */
  predicate HasNul(rel: string) {
    '\0' in rel
  }

  /** `write_text` after the guard: the root is a directory, so writing to it
      raises; any other target receives the content. */
  function WriteTo(root: Segments, target: Segments, content: string): (r: Result<ArtifactWrite, WriteError>)
    ensures target == root <==> r.Failure?
    ensures r.Failure? ==> r.error == IsADirectory(PathText(root))
    ensures r.Success? ==>
      && r.value.path == PathText(target)
      && r.value.content == content
      && r.value.message == "Artifact written: " + r.value.path
  {
    if target == root then Failure(IsADirectory(PathText(root)))
    else
      var path := PathText(target);
      Success(ArtifactWrite(path, content, "Artifact written: " + path))
  }

  /** `_run(relative_path, content)` as written: `resolve()` refuses a NUL
      character, then `_safe_path`'s textual test, then the write. A sibling whose name extends the root's last segment
      passes the test and is written. */
  function WriteArtifact(root: Segments, rel: string, content: string): (r: Result<ArtifactWrite, WriteError>)
    requires IsNormal(root) && root != []
    ensures r.Success? <==> !HasNul(rel) && TextuallyUnder(Resolve(root, rel), root) && Resolve(root, rel) != root
    ensures HasNul(rel) ==> r == Failure(EmbeddedNull)
    ensures !HasNul(rel) && !TextuallyUnder(Resolve(root, rel), root) ==> r == Failure(Traversal(TraversalMessage))
    ensures !HasNul(rel) && Resolve(root, rel) == root ==> r == Failure(IsADirectory(PathText(root)))
    ensures r.Success? ==>
      && r.value.path == PathText(Resolve(root, rel))
      && r.value.content == content
      && r.value.message == "Artifact written: " + r.value.path
  {
    if HasNul(rel) then Failure(EmbeddedNull)
    else
    match SafePathAsWritten(root, rel)
    case Failure(e) => Failure(Traversal(e))
    case Success(target) => WriteTo(root, target, content)
  }

  /** `_run` with the guard as evidently intended: only the root and what
      lies below it pass. */
  function WriteArtifactIntended(root: Segments, rel: string, content: string): (r: Result<ArtifactWrite, WriteError>)
    requires IsNormal(root) && root != []
    ensures r.Success? <==> !HasNul(rel) && Inside(Resolve(root, rel), root) && Resolve(root, rel) != root
    ensures HasNul(rel) ==> r == Failure(EmbeddedNull)
    ensures !HasNul(rel) && !Inside(Resolve(root, rel), root) ==> r == Failure(Traversal(TraversalMessage))
    ensures !HasNul(rel) && Resolve(root, rel) == root ==> r == Failure(IsADirectory(PathText(root)))
    ensures r.Success? ==>
      && r.value.path == PathText(Resolve(root, rel))
      && r.value.content == content
      && r.value.message == "Artifact written: " + r.value.path
  {
    if HasNul(rel) then Failure(EmbeddedNull)
    else
    match SafePath(root, rel)
    case Failure(e) => Failure(Traversal(e))
    case Success(target) => WriteTo(root, target, content)
  }

  // Rendering paths as text

  lemma {:induction false} RenderAppend(p: Segments, q: Segments)
    ensures Render(p + q) == Render(p) + Render(q)
    decreases |p|
  {
    if p == [] {
      assert p + q == q;
    } else {
      assert (p + q)[0] == p[0];
      assert (p + q)[1..] == p[1..] + q;
      RenderAppend(p[1..], q);
    }
  }

  lemma {:induction false} StartsWithCons(x: string, y: string, z: string)
    ensures StartsWith(x + y, x + z) <==> StartsWith(y, z)
  {
    if StartsWith(x + y, x + z) {
      assert y[..|z|] == (x + y)[..|x| + |z|][|x|..];
    }
    if StartsWith(y, z) {
      assert (x + y)[..|x| + |z|] == x + y[..|z|];
    }
  }

  /** A segment followed by the rest of a rendered path starts with another
      segment followed by the rest of another rendered path exactly when the
      segments agree and the rests do, or, when the second rest is empty,
      when the first segment extends the second. */
  lemma {:induction false} SegmentPrefix(b: string, u: string, a: string, v: string)
    requires '/' !in a && '/' !in b
    requires u == [] || u[0] == '/'
    requires v == [] || v[0] == '/'
    ensures v == [] ==> (StartsWith(b + u, a + v) <==> StartsWith(b, a))
    ensures v != [] ==> (StartsWith(b + u, a + v) <==> a == b && StartsWith(u, v))
  {
    if v == [] {
      assert a + v == a;
      if StartsWith(b + u, a) && |a| > 0 {
        var k := if |a| <= |b| then 0 else |b|;
        assert a[k] == (b + u)[k];
      }
      if StartsWith(b, a) {
        assert (b + u)[..|a|] == b[..|a|];
      }
    } else {
      if StartsWith(b + u, a + v) {
        var k := if |a| < |b| then |a| else |b|;
        assert (b + u)[k] == (a + v)[k];
        assert a == (b + u)[..|a|] == b;
      }
      if a == b {
        StartsWithCons(a, u, v);
      }
    }
  }

  /** The textual prefix test on rendered paths, in terms of segments. */
  lemma {:induction false} RenderStartsWith(t: Segments, root: Segments)
    requires IsNormal(t) && IsNormal(root) && root != []
    ensures StartsWith(PathText(t), PathText(root)) <==> TextuallyUnder(t, root)
    decreases |root|
  {
    if t == [] {
      assert |PathText(root)| >= 2;
    } else {
      var a, b := root[0], t[0];
      RenderCons(t);
      RenderCons(root);
      StartsWithCons("/", b + Render(t[1..]), a + Render(root[1..]));
      SegmentPrefix(b, Render(t[1..]), a, Render(root[1..]));
      if |root| > 1 {
        RenderStartsWith(t[1..], root[1..]);
        TextuallyUnderCons(t, root);
      }
    }
  }

  /** Below the first segment, the textual test moves one segment down. */
  lemma {:induction false} TextuallyUnderCons(t: Segments, root: Segments)
    requires t != [] && |root| > 1
    ensures TextuallyUnder(t, root) <==> t[0] == root[0] && TextuallyUnder(t[1..], root[1..])
  {
    var n := |root|;
    if |t| >= n {
      assert t[..n - 1] == [t[0]] + t[1..][..n - 2];
      assert root[..n - 1] == [root[0]] + root[1..][..n - 2];
    }
  }

  /** A target strictly below the root renders as the root's text, a
      separator, and more. */
  lemma BelowRendersSeparated(t: Segments, root: Segments)
    requires IsNormal(root) && root != []
    requires Inside(t, root) && t != root
    ensures StartsWith(PathText(t), PathText(root) + "/")
  {
    var n := |root|;
    assert t == root + t[n..];
    RenderAppend(root, t[n..]);
    assert Render(t)[..|Render(root)| + 1] == Render(root) + "/";
  }

  /** A path's text, split before its segment at position `k`. */
  lemma {:induction false} RenderSplit(p: Segments, k: nat)
    requires k < |p|
    ensures Render(p) == Render(p[..k]) + ("/" + (p[k] + Render(p[k + 1..])))
  {
    var tail := p[k..];
    assert p == p[..k] + tail;
    RenderAppend(p[..k], tail);
    assert tail[0] == p[k] && tail[1..] == p[k + 1..];
  }

  /** `/b` followed by the rest of a rendered path starts with `/a/` exactly
      when `b` is `a` and the rest is not empty. */
  lemma {:induction false} SeparatedHead(b: string, u: string, a: string)
    requires '/' !in a && '/' !in b
    requires u == [] || u[0] == '/'
    requires StartsWith("/" + (b + u), "/" + (a + "/"))
    ensures a == b && u != []
  {
    StartsWithCons("/", b + u, a + "/");
    SegmentPrefix(b, u, a, "/");
  }

  lemma {:induction false} RenderCons(p: Segments)
    requires p != []
    ensures Render(p) == "/" + (p[0] + Render(p[1..]))
  {
  }

  lemma {:induction false} RenderOne(a: string)
    ensures Render([a]) + "/" == "/" + (a + "/")
  {
    assert [a][1..] == [];
  }

  /** A path whose text starts with `/a/` begins with the segment `a` and
      goes on below it. */
  lemma FirstSegmentSeparated(p: Segments, a: string)
    requires IsNormal(p) && IsSegment(a)
    requires StartsWith(Render(p), Render([a]) + "/")
    ensures |p| >= 2 && p[0] == a
  {
    RenderOne(a);
    assert p != [];
    RenderCons(p);
    SeparatedHead(p[0], Render(p[1..]), a);
  }

  lemma {:induction false} RenderSlashed(p: Segments, q: Segments)
    ensures Render(p + q) + "/" == Render(p) + (Render(q) + "/")
  {
    RenderAppend(p, q);
  }

  /** A target that agrees with the root before its last segment, and whose
      text continues the root's text with a separator, repeats that segment
      and goes on below it. */
  lemma SameLastSegment(t: Segments, root: Segments)
    requires IsNormal(t) && IsNormal(root) && root != []
    requires TextuallyUnder(t, root)
    requires StartsWith(Render(t), Render(root) + "/")
    ensures Inside(t, root)
  {
    var n := |root|;
    var head, rest, a := root[..n - 1], t[n - 1..], root[n - 1];
    Rejoin(t, n - 1);
    Rejoin(root, n - 1);
    assert t == head + rest;
    assert root == head + [a];
    TailSeparated(head, rest, a);
    assert forall i :: 0 <= i < |rest| ==> rest[i] == t[n - 1 + i];
    FirstSegmentSeparated(rest, a);
    PrefixExtends(t, root);
  }

  /** Cutting a common head off both texts keeps the separated prefix test. */
  lemma {:induction false} TailSeparated(head: Segments, rest: Segments, a: string)
    requires StartsWith(Render(head + rest), Render(head + [a]) + "/")
    ensures StartsWith(Render(rest), Render([a]) + "/")
  {
    RenderAppend(head, rest);
    RenderSlashed(head, [a]);
    StartsWithCons(Render(head), Render(rest), Render([a]) + "/");
  }

  lemma {:induction false} Rejoin(p: Segments, k: nat)
    requires k < |p|
    ensures p == p[..k] + p[k..]
    ensures |p| == k + 1 ==> p[k..] == [p[k]]
  {
  }

  /** Agreeing before the root's last segment and at it is agreeing on the
      whole root. */
  lemma {:induction false} PrefixExtends(t: Segments, root: Segments)
    requires 0 < |root| <= |t|
    requires t[..|root| - 1] == root[..|root| - 1]
    requires t[|root| - 1] == root[|root| - 1]
    ensures t[..|root|] == root
  {
    var n := |root|;
    forall i | 0 <= i < n
      ensures t[..n][i] == root[i]
    {
      if i < n - 1 {
        assert t[..n - 1][i] == root[..n - 1][i];
      }
    }
  }

  /** A target whose text continues the root's text with a separator lies
      below the root. */
  lemma SeparatedRendersBelow(t: Segments, root: Segments)
    requires IsNormal(t) && IsNormal(root) && root != []
    requires StartsWith(PathText(t), PathText(root) + "/")
    ensures Inside(t, root)
  {
    var s, p := PathText(t), PathText(root);
    assert s[..|p|] == s[..|p| + 1][..|p|];
    RenderStartsWith(t, root);
    SameLastSegment(t, root);
  }

  /** The separated prefix test holds exactly for targets inside the root. */
  lemma SeparatedPrefix(t: Segments, root: Segments)
    requires IsNormal(t) && IsNormal(root) && root != []
    ensures (t == root || StartsWith(PathText(t), PathText(root) + "/")) <==> Inside(t, root)
  {
    if Inside(t, root) && t != root {
      BelowRendersSeparated(t, root);
    }
    if t != root && StartsWith(PathText(t), PathText(root) + "/") {
      SeparatedRendersBelow(t, root);
    }
  }

  // What the guard admits and refuses

  /** Without `..` pieces, walking only ever appends below the start. */
  lemma {:induction false} WalkStaysBelow(p: Segments, pieces: seq<string>)
    requires forall i :: 0 <= i < |pieces| ==> pieces[i] != ".."
    ensures Inside(Walk(p, pieces), p)
    decreases |pieces|
  {
    if pieces != [] {
      var next := Step(p, pieces[0]);
      WalkStaysBelow(next, pieces[1..]);
      var r := Walk(next, pieces[1..]);
      assert r[..|p|] == r[..|next|][..|p|];
    }
  }

  /** Any relative path with no `..` piece resolves inside the root and is
      accepted, by the check as written and by the intended one. */
  lemma DescendantAccepted(root: Segments, rel: string)
    requires IsNormal(root) && root != []
    requires !IsAbsolute(rel)
    requires forall i :: 0 <= i < |Split(rel, '/')| ==> Split(rel, '/')[i] != ".."
    ensures SafePath(root, rel).Success?
    ensures SafePathAsWritten(root, rel).Success?
  {
    WalkStaysBelow(root, Split(rel, '/'));
    AcceptedAsWritten(root, rel);
  }

  /** The intended check never admits what the check as written refuses. */
  lemma AcceptedAsWritten(root: Segments, rel: string)
    requires IsNormal(root) && root != []
    requires SafePath(root, rel).Success?
    ensures SafePathAsWritten(root, rel).Success?
  {
    var t := Resolve(root, rel);
    var n := |root|;
    assert t[..n - 1] == t[..n][..n - 1];
  }

  /** The two checks disagree exactly on siblings: targets that leave the
      root at its last segment for a name extending that segment. */
  lemma ChecksDisagreeOnSiblings(root: Segments, rel: string)
    requires IsNormal(root) && root != []
    ensures SafePathAsWritten(root, rel).Success? && SafePath(root, rel).Failure? <==>
      var t, n := Resolve(root, rel), |root|;
      && TextuallyUnder(t, root)
      && t[n - 1] != root[n - 1]
  {
    var t, n := Resolve(root, rel), |root|;
    if TextuallyUnder(t, root) && t[n - 1] == root[n - 1] {
      PrefixExtends(t, root);
    }
  }

  lemma {:induction false} SplitThree(a: string, b: string, c: string)
    requires '/' !in a && '/' !in b && '/' !in c
    ensures Split(a + "/" + b + "/" + c, '/') == [a, b, c]
  {
    var parts := [a, b, c];
    assert Join("/", parts[2..]) == c;
    assert Join("/", parts[1..]) == b + "/" + c;
    assert Join("/", parts) == a + "/" + b + "/" + c;
    SplitJoin(parts, '/');
  }

  lemma {:induction false} SplitTwo(a: string, b: string)
    requires '/' !in a && '/' !in b
    ensures Split(a + "/" + b, '/') == [a, b]
  {
    var parts := [a, b];
    assert Join("/", parts[1..]) == b;
    SplitJoin(parts, '/');
  }

  lemma {:induction false} ClimbPieces(name: string)
    requires '/' !in name
    ensures Split("../" + name, '/') == ["..", name]
  {
    assert "../" + name == ".." + "/" + name;
    SplitTwo("..", name);
  }

  lemma {:induction false} SiblingPieces(name: string, file: string)
    requires '/' !in name && '/' !in file
    ensures Split("../" + name + "/" + file, '/') == ["..", name, file]
  {
    assert "../" + name + "/" + file == ".." + "/" + name + "/" + file;
    SplitThree("..", name, file);
  }

  /** `../<name>` leaves the root for a sibling; unless the sibling's name
      extends the root's last segment, the check as written refuses it. */
  lemma ClimbOutRejected(root: Segments, name: string)
    requires IsNormal(root) && root != []
    requires IsSegment(name) && !StartsWith(name, root[|root| - 1])
    ensures Resolve(root, "../" + name) == root[..|root| - 1] + [name]
    ensures SafePathAsWritten(root, "../" + name).Failure?
    ensures SafePath(root, "../" + name).Failure?
  {
    ClimbResolves(root, name);
    var n := |root|;
    var t := root[..n - 1] + [name];
    assert t[n - 1] == name && StartsWith(root[n - 1], root[n - 1]);
  }

  /** `../<name>` resolves to the sibling `name` of the root. */
  lemma ClimbResolves(root: Segments, name: string)
    requires root != [] && IsSegment(name)
    ensures Resolve(root, "../" + name) == root[..|root| - 1] + [name]
  {
    ClimbPieces(name);
    var pieces := ["..", name];
    var up := root[..|root| - 1];
    assert Walk(root, pieces) == Walk(up, pieces[1..]);
    assert Walk(up, pieces[1..]) == Walk(up + [name], []);
  }

  /** An absolute path replaces the root: where it resolves does not depend
      on the root, so one outside the root's text is refused. */
  lemma AbsoluteIgnoresRoot(root: Segments, rel: string)
    requires IsNormal(root) && root != []
    requires IsAbsolute(rel)
    ensures Resolve(root, rel) == Resolve([], rel)
    ensures SafePathAsWritten(root, rel).Success? <==> TextuallyUnder(Resolve([], rel), root)
  {
  }

  /** The weakness of the check as written: `../<last><suffix>/<file>` names
      a sibling of the root whose name extends the root's last segment, and
      it is accepted although it lies outside the root; the intended check
      refuses it. */
  lemma SiblingAccepted(root: Segments, suffix: string, file: string)
    requires IsNormal(root) && root != []
    requires suffix != [] && IsSegment(root[|root| - 1] + suffix) && IsSegment(file)
    ensures
      var rel := "../" + (root[|root| - 1] + suffix) + "/" + file;
      && Resolve(root, rel) == root[..|root| - 1] + [root[|root| - 1] + suffix, file]
      && SafePathAsWritten(root, rel).Success?
      && !Inside(Resolve(root, rel), root)
      && SafePath(root, rel).Failure?
  {
    var n := |root|;
    var name := root[n - 1] + suffix;
    SiblingResolves(root, name, file);
    var t := root[..n - 1] + [name, file];
    assert t[..n - 1] == root[..n - 1] && t[n - 1] == name;
    assert name[..|root[n - 1]|] == root[n - 1];
    assert t[n - 1] != root[n - 1];
  }

  /** `../<name>/<file>` resolves to `file` inside the sibling `name` of the
      root. */
  lemma SiblingResolves(root: Segments, name: string, file: string)
    requires root != [] && IsSegment(name) && IsSegment(file)
    ensures Resolve(root, "../" + name + "/" + file) == root[..|root| - 1] + [name, file]
  {
    SiblingPieces(name, file);
    var pieces := ["..", name, file];
    var up := root[..|root| - 1];
    assert Walk(root, pieces) == Walk(up, pieces[1..]);
    assert Walk(up, pieces[1..]) == Walk(up + [name], pieces[2..]);
    assert Walk(up + [name], pieces[2..]) == Walk(up + [name, file], []);
  }

  /** Inside the root the two writers do the same thing. */
  lemma WritersAgreeInside(root: Segments, rel: string, content: string)
    requires IsNormal(root) && root != []
    requires Inside(Resolve(root, rel), root)
    ensures WriteArtifact(root, rel, content) == WriteArtifactIntended(root, rel, content)
  {
    AcceptedAsWritten(root, rel);
  }

  /** The writer as written puts the content in the sibling directory and
      reports that path; the intended writer refuses. */
  lemma SiblingWritten(root: Segments, suffix: string, file: string, content: string)
    requires IsNormal(root) && root != []
    requires suffix != [] && IsSegment(root[|root| - 1] + suffix) && IsSegment(file)
    requires !HasNul(root[|root| - 1] + suffix) && !HasNul(file)
    ensures
      var n := |root|;
      var rel := "../" + (root[n - 1] + suffix) + "/" + file;
      && WriteArtifact(root, rel, content).Success?
      && WriteArtifact(root, rel, content).value.path == Render(root[..n - 1] + [root[n - 1] + suffix, file])
      && WriteArtifactIntended(root, rel, content) == Failure(Traversal(TraversalMessage))
  {
    var n := |root|;
    SiblingAccepted(root, suffix, file);
    SiblingNulFree(root[n - 1] + suffix, file);
    var t := root[..n - 1] + [root[n - 1] + suffix, file];
    assert |t| == n + 1;
  }

  lemma SiblingNulFree(name: string, file: string)
    requires !HasNul(name) && !HasNul(file)
    ensures !HasNul("../" + name + "/" + file)
  {
    var rel := "../" + name + "/" + file;
    forall i | 0 <= i < |rel|
      ensures rel[i] != '\0'
    {
      if 3 <= i < 3 + |name| {
        assert rel[i] == name[i - 3];
      } else if i >= 4 + |name| {
        assert rel[i] == file[i - 4 - |name|];
      }
    }
  }
}

=== FILE: finance_crew.dfy ===
/** The finance crew: three agents, each with the two internet tools in front of
    its role tools, and three tasks from cost estimation to the CFO approval gate. */
module FinanceCrew {
  import opened Wrappers
  import opened Tools
  import opened Crews
  import InternetTools

  const Roles: seq<Role> := [
    Role("cfo", [WriteArtifact]),
    Role("financial_analyst", [WriteArtifact, CostModel]),
    Role("cost_controller", [WriteArtifact])
  ]

  const TaskKeys: seq<string> := [
    "cost_estimation",
    "budget_controls",
    "cfo_approval_gate"
  ]

  const Spec: CrewSpec := CrewSpec(Roles, InternetTools.BuildInternetTools(), TaskKeys)

  /** `_build_agents`: `build_internet_tools()` goes in front of every role's tools. */
  function BuildAgents(agents: map<string, AgentCfg>): (r: Result<Roster, CrewError>)
    ensures r.Success? <==> forall i :: 0 <= i < |Roles| ==> AgentConfigured(agents, Roles[i].name)
    ensures r.Success? ==> Names(r.value) == ["cfo", "financial_analyst", "cost_controller"]
    ensures r.Success? ==> ToolLists(r.value) == [
      [InternetSearch, ReadWebpage, WriteArtifact],
      [InternetSearch, ReadWebpage, WriteArtifact, CostModel],
      [InternetSearch, ReadWebpage, WriteArtifact]]
    ensures r.Success? ==> forall i :: 0 <= i < |r.value| ==>
      |r.value[i].1.tools| >= 2 && r.value[i].1.tools[..2] == InternetTools.BuildInternetTools()
  {
    RolesShape();
    BuildRoster(agents, Roles, InternetTools.BuildInternetTools())
  }

  lemma RolesShape()
    ensures RoleNames(Roles) == ["cfo", "financial_analyst", "cost_controller"]
    ensures forall i :: 0 <= i < |Roles| ==>
      RoleTools(InternetTools.BuildInternetTools(), Roles)[i][..2] == InternetTools.BuildInternetTools()
    ensures RoleTools(InternetTools.BuildInternetTools(), Roles) == [
      [InternetSearch, ReadWebpage, WriteArtifact],
      [InternetSearch, ReadWebpage, WriteArtifact, CostModel],
      [InternetSearch, ReadWebpage, WriteArtifact]]
  {
    var shared := InternetTools.BuildInternetTools();
    assert shared == [Tool.InternetSearch, Tool.ReadWebpage];
    assert shared + [Tool.WriteArtifact] == [Tool.InternetSearch, Tool.ReadWebpage, Tool.WriteArtifact];
    assert shared + [Tool.WriteArtifact, Tool.CostModel] == [Tool.InternetSearch, Tool.ReadWebpage, Tool.WriteArtifact, Tool.CostModel];
  }
}

=== FILE: finance_tools.dfy ===
/** The cost model tool of finance_tools.py: a fixed low/base/high estimate
    template that echoes the initiative it is asked about. */
module FinanceTools {

  datatype Estimate = Estimate(low: int, base: int, high: int)

  /** The JSON record `CostModelTool._run` returns. */
  datatype CostModelReport = CostModelReport(
    initiative: string,
    currency: string,
    estimate: Estimate,
    drivers: seq<string>)

  const Drivers: seq<string> := [
    "Engineering staffing",
    "Model/API usage",
    "Security and compliance review effort",
    "QA and release hardening"
  ]

  /** `CostModelTool._run(initiative)`. */
  function CostModel(initiative: string): (r: CostModelReport)
    ensures r.initiative == initiative
    ensures r.currency == "USD"
    ensures r.estimate == Estimate(50000, 90000, 150000) && r.drivers == Drivers
    ensures 0 < r.estimate.low < r.estimate.base < r.estimate.high
    ensures |r.drivers| == 4 && forall i, j :: 0 <= i < j < 4 ==> r.drivers[i] != r.drivers[j]
  {
    CostModelReport(initiative, "USD", Estimate(50000, 90000, 150000), Drivers)
  }

  /** Apart from the echoed initiative, the report does not depend on the
      input. */
  lemma CostModelIgnoresInput(a: string, b: string)
    ensures CostModel(a) == CostModel(b).(initiative := a)
  {
  }
}

=== FILE: flow.dfy ===
/** The orchestration flow of main.py: a linear state machine over the
    organization state. The technical stage validates the request and runs the
    technical crew; the next stage runs the finance crew and then the
    compliance crew; then the marketing crew runs; the last stage renders the
    report. Each crew run is a parameter (`CrewRun`), so the model holds for
    whatever the crews answer. */
module Flow {
  import opened Wrappers
  import opened Text
  import opened Crews

  const DefaultReportPath: string := "src/company_ai/artifacts/reports/final_orchestration_report.md"

  datatype OrganizationState = OrganizationState(
    ceoRequest: string,
    technicalOutput: string,
    financeOutput: string,
    complianceOutput: string,
    marketingOutput: string,
    finalReportPath: string)

  /** The state `kickoff(inputs={"ceo_request": request})` starts from: every
      output empty, the report path at its default. */
  function InitialState(request: string): (s: OrganizationState)
    ensures s.ceoRequest == request
    ensures s.technicalOutput == "" && s.financeOutput == "" && s.complianceOutput == "" && s.marketingOutput == ""
    ensures s.finalReportPath == DefaultReportPath
  {
    OrganizationState(request, "", "", "", "", DefaultReportPath)
  }

  datatype CrewKind = Technical | Finance | Compliance | Marketing

  /** The four crews' `run` methods, and the file system `finalize` writes
      the report to: `writeReport(path, text)` is the OSError text when
      `mkdir` or `write_text` raises, and `None` when the file is written. */
  datatype Departments = Departments(
    technical: CrewRun,
    finance: CrewRun,
    compliance: CrewRun,
    marketing: CrewRun,
    writeReport: (string, string) -> Option<string>)

  /** A crew run the flow made, with the request it passed. */
  datatype Call = Call(crew: CrewKind, input: string)

  datatype FlowError =
    | RequestRequired                               // ValueError("CEO request is required.")
    | CrewFailed(crew: CrewKind, error: CrewError)  // a crew's run raised
    | ReportWriteFailed(message: string)            // `finalize`'s mkdir or write_text raised

  /** What one stage did: the state after it, the crew runs it made, and the
      error that ended the flow, if any. */
  datatype Step = Step(state: OrganizationState, calls: seq<Call>, error: Option<FlowError>)

  /** `run_technical`: the stripped request must be non-empty; the technical
      crew receives the stripped request. */
  function RunTechnical(d: Departments, s: OrganizationState): (r: Step)
    ensures r.state.ceoRequest == s.ceoRequest && r.state.finalReportPath == s.finalReportPath
    ensures Strip(s.ceoRequest) == [] <==> r.calls == []
    ensures Strip(s.ceoRequest) == [] ==> r.state == s && r.error == Some(RequestRequired)
    ensures r.calls != [] ==> r.calls == [Call(Technical, Strip(s.ceoRequest))]
    ensures r.error.None? ==>
      d.technical(Strip(s.ceoRequest)).Success? && r.state == s.(technicalOutput := d.technical(Strip(s.ceoRequest)).value)
    ensures r.error.Some? ==> r.state == s
    ensures r.error.None? <==> Strip(s.ceoRequest) != [] && d.technical(Strip(s.ceoRequest)).Success?
    ensures Strip(s.ceoRequest) != [] && d.technical(Strip(s.ceoRequest)).Failure? ==>
      r.error == Some(CrewFailed(Technical, d.technical(Strip(s.ceoRequest)).error))
  {
    var request := Strip(s.ceoRequest);
    if request == [] then Step(s, [], Some(RequestRequired))
    else
      match d.technical(request)
      case Failure(e) => Step(s, [Call(Technical, request)], Some(CrewFailed(Technical, e)))
      case Success(out) => Step(s.(technicalOutput := out), [Call(Technical, request)], None)
  }

  /** `run_finance_and_compliance`: finance then compliance, both on the
      request as stored (not stripped); a finance failure means compliance
      never runs. */
  function RunFinanceAndCompliance(d: Departments, s: OrganizationState): (r: Step)
    ensures r.state.ceoRequest == s.ceoRequest && r.state.finalReportPath == s.finalReportPath
    ensures 1 <= |r.calls| <= 2
    ensures r.calls == [Call(Finance, s.ceoRequest), Call(Compliance, s.ceoRequest)][..|r.calls|]
    ensures r.state.(financeOutput := s.financeOutput, complianceOutput := s.complianceOutput) == s
    ensures r.error.None? ==>
      && |r.calls| == 2
      && d.finance(s.ceoRequest).Success?
      && d.compliance(s.ceoRequest).Success?
      && r.state.financeOutput == d.finance(s.ceoRequest).value
      && r.state.complianceOutput == d.compliance(s.ceoRequest).value
    ensures r.error.None? <==> d.finance(s.ceoRequest).Success? && d.compliance(s.ceoRequest).Success?
    ensures d.finance(s.ceoRequest).Failure? ==>
      && r.calls == [Call(Finance, s.ceoRequest)]
      && r.state == s
      && r.error == Some(CrewFailed(Finance, d.finance(s.ceoRequest).error))
    ensures d.finance(s.ceoRequest).Success? ==>
      && |r.calls| == 2
      && r.state.financeOutput == d.finance(s.ceoRequest).value
    ensures d.finance(s.ceoRequest).Success? && d.compliance(s.ceoRequest).Failure? ==>
      r.error == Some(CrewFailed(Compliance, d.compliance(s.ceoRequest).error))
  {
    var request := s.ceoRequest;
    match d.finance(request)
    case Failure(e) => Step(s, [Call(Finance, request)], Some(CrewFailed(Finance, e)))
    case Success(f) =>
      var s1 := s.(financeOutput := f);
      match d.compliance(request)
      case Failure(e) => Step(s1, [Call(Finance, request), Call(Compliance, request)], Some(CrewFailed(Compliance, e)))
      case Success(c) => Step(s1.(complianceOutput := c), [Call(Finance, request), Call(Compliance, request)], None)
  }

  /** `run_marketing`: the marketing crew on the stored request. */
  function RunMarketing(d: Departments, s: OrganizationState): (r: Step)
    ensures r.state.ceoRequest == s.ceoRequest && r.state.finalReportPath == s.finalReportPath
    ensures r.calls == [Call(Marketing, s.ceoRequest)]
    ensures r.state.(marketingOutput := s.marketingOutput) == s
    ensures r.error.None? <==> d.marketing(s.ceoRequest).Success?
    ensures r.error.None? ==> r.state.marketingOutput == d.marketing(s.ceoRequest).value
    ensures r.error.Some? ==> r.state == s && r.error == Some(CrewFailed(Marketing, d.marketing(s.ceoRequest).error))
  {
    match d.marketing(s.ceoRequest)
    case Failure(e) => Step(s, [Call(Marketing, s.ceoRequest)], Some(CrewFailed(Marketing, e)))
    case Success(m) => Step(s.(marketingOutput := m), [Call(Marketing, s.ceoRequest)], None)
  }

  /** The sixteen lines `finalize` joins. */
  function ReportLines(s: OrganizationState): (lines: seq<string>)
    ensures |lines| == 16
  {
    [
      "# ai_company Orchestration Report",
      "",
      "## CEO Request",
      s.ceoRequest,
      "",
      Header(Technical),
      s.technicalOutput,
      "",
      Header(Finance),
      s.financeOutput,
      "",
      Header(Compliance),
      s.complianceOutput,
      "",
      Header(Marketing),
      s.marketingOutput
    ]
  }

  /** The header line opening crew `c`'s section of the report. */
  function Header(c: CrewKind): string {
    match c
    case Technical => "## Technical Crew Output"
    case Finance => "## Finance Crew Output"
    case Compliance => "## Compliance Crew Output"
    case Marketing => "## Marketing Crew Output"
  }

  /** The report line holding crew `c`'s header: the sections follow the
      request in the order technical, finance, compliance, marketing. */
  function HeaderIndex(c: CrewKind): (k: nat)
    ensures 5 <= k < 15
  {
    match c
    case Technical => 5
    case Finance => 8
    case Compliance => 11
    case Marketing => 14
  }

  /** The field of the state holding crew `c`'s answer. */
  function Output(s: OrganizationState, c: CrewKind): string {
    match c
    case Technical => s.technicalOutput
    case Finance => s.financeOutput
    case Compliance => s.complianceOutput
    case Marketing => s.marketingOutput
  }

  /** The report text `finalize` writes. */
  function Report(s: OrganizationState): string {
    Join("\n", ReportLines(s))
  }

  /** Where line `k` of the report starts. */
  function LineStart(s: OrganizationState, k: nat): nat
    requires k < 16
  {
    Offset("\n", ReportLines(s), k)
  }

  /** Line `k` of the report is `text`, found verbatim at its start position. */
  predicate LineIs(s: OrganizationState, k: nat, text: string)
    requires k < 16
  {
    && LineStart(s, k) + |text| <= |Report(s)|
    && Report(s)[LineStart(s, k)..LineStart(s, k) + |text|] == text
  }

  /** Every line of the report sits verbatim at its start position. */
  lemma LineAt(s: OrganizationState, k: nat)
    requires k < 16
    ensures LineIs(s, k, ReportLines(s)[k])
  {
    JoinAt("\n", ReportLines(s), k);
  }

  /** The title opens the report and the request follows its header
      verbatim, whatever the request holds. */
  lemma RequestSection(s: OrganizationState)
    ensures StartsWith(Report(s), "# ai_company Orchestration Report")
    ensures LineIs(s, 2, "## CEO Request")
    ensures LineIs(s, 3, s.ceoRequest)
  {
    LineAt(s, 0);
    LineAt(s, 2);
    LineAt(s, 3);
  }

  /** Crew `c`'s section carries its header, and the crew's answer follows
      on the next line verbatim, whatever the crews wrote. */
  lemma CrewSection(s: OrganizationState, c: CrewKind)
    ensures LineIs(s, HeaderIndex(c), Header(c))
    ensures LineIs(s, HeaderIndex(c) + 1, Output(s, c))
  {
    SectionLines(s, c);
    LineAt(s, HeaderIndex(c));
    LineAt(s, HeaderIndex(c) + 1);
  }

  lemma SectionLines(s: OrganizationState, c: CrewKind)
    ensures ReportLines(s)[HeaderIndex(c)] == Header(c)
    ensures ReportLines(s)[HeaderIndex(c) + 1] == Output(s, c)
  {
  }

  /** Crew `c`'s header starts after the request has ended. */
  lemma HeaderAfterRequest(s: OrganizationState, c: CrewKind)
    ensures LineStart(s, 3) + |s.ceoRequest| < LineStart(s, HeaderIndex(c))
  {
    var lines := ReportLines(s);
    assert |lines[3]| == |s.ceoRequest|;
    OffsetIncreasing("\n", lines, 3, HeaderIndex(c));
  }

  /** Crew `c`'s header ends before the crew's answer begins. */
  lemma HeaderBeforeOutput(s: OrganizationState, c: CrewKind)
    ensures LineStart(s, HeaderIndex(c)) + |Header(c)| < LineStart(s, HeaderIndex(c) + 1)
  {
    SectionLines(s, c);
    OffsetIncreasing("\n", ReportLines(s), HeaderIndex(c), HeaderIndex(c) + 1);
  }

  /** The sections never overlap: when crew `c`'s section comes first, its
      answer ends before the header of `later` starts. */
  lemma SectionsInOrder(s: OrganizationState, c: CrewKind, later: CrewKind)
    requires HeaderIndex(c) < HeaderIndex(later)
    ensures LineStart(s, HeaderIndex(c) + 1) + |Output(s, c)| < LineStart(s, HeaderIndex(later))
  {
    var lines := ReportLines(s);
    SectionLines(s, c);
    OffsetIncreasing("\n", lines, HeaderIndex(c) + 1, HeaderIndex(later));
  }

  /** When no field holds a line break, splitting the report at line breaks
      gives back the sixteen lines. */
  lemma ReportSplits(s: OrganizationState)
    requires forall i :: 0 <= i < 16 ==> '\n' !in ReportLines(s)[i]
    ensures Split(Report(s), '\n') == ReportLines(s)
  {
    SplitJoin(ReportLines(s), '\n');
  }

  /** One run of the flow: the final state, the crew runs in the order made,
      the report written (path and text), and `kickoff`'s result. */
  datatype FlowRun = FlowRun(
    state: OrganizationState,
    calls: seq<Call>,
    written: Option<(string, string)>,
    result: Result<string, FlowError>)

  /** The crew runs a flow makes when nothing fails. */
  function ExpectedCalls(request: string): seq<Call> {
    [Call(Technical, Strip(request))] + LaterCalls(request)
  }

  /** Every crew answers the request it is given. */
  predicate AllCrewsSucceed(d: Departments, request: string) {
    && d.technical(Strip(request)).Success?
    && d.finance(request).Success?
    && d.compliance(request).Success?
    && d.marketing(request).Success?
  }

  /** `finalize` writes state `s`'s report to its path without raising. */
  predicate ReportWritten(d: Departments, s: OrganizationState) {
    d.writeReport(s.finalReportPath, Report(s)).None?
  }

  /** The state a flow reaches when every crew answers. */
  function FinalState(d: Departments, request: string): OrganizationState
    requires AllCrewsSucceed(d, request)
  {
    OrganizationState(
      request,
      d.technical(Strip(request)).value,
      d.finance(request).value,
      d.compliance(request).value,
      d.marketing(request).value,
      DefaultReportPath)
  }

  function Stopped(step: Step, previous: seq<Call>): FlowRun
    requires step.error.Some?
  {
    FlowRun(step.state, previous + step.calls, None, Failure(step.error.value))
  }

  /** The marketing stage and `finalize`, after the earlier stages made
      `calls`: the report of the state marketing leaves is written to the
      state's path, and an OSError from that write leaves `kickoff`. */
  function FinishFlow(d: Departments, s: OrganizationState, calls: seq<Call>): (r: FlowRun)
    ensures r.calls == calls + [Call(Marketing, s.ceoRequest)]
    ensures d.marketing(s.ceoRequest).Success? ==> r.state == s.(marketingOutput := d.marketing(s.ceoRequest).value)
    ensures r.result.Success? <==> d.marketing(s.ceoRequest).Success? && ReportWritten(d, r.state)
    ensures r.result.Failure? ==> r.written.None?
    ensures d.marketing(s.ceoRequest).Success? && !ReportWritten(d, r.state) ==>
      r.result == Failure(ReportWriteFailed(d.writeReport(s.finalReportPath, Report(r.state)).value))
    ensures r.result.Success? ==>
      && r.result.value == s.finalReportPath
      && r.written == Some((s.finalReportPath, Report(r.state)))
  {
    var m := RunMarketing(d, s);
    if m.error.Some? then Stopped(m, calls)
    else
      var s' := m.state;
      var report := Report(s');
      match d.writeReport(s'.finalReportPath, report)
      case Some(e) => FlowRun(s', calls + m.calls, None, Failure(ReportWriteFailed(e)))
      case None => FlowRun(s', calls + m.calls, Some((s'.finalReportPath, report)), Success(s'.finalReportPath))
  }

  /** The crew runs after the technical stage, when nothing fails. */
  function LaterCalls(request: string): seq<Call> {
    [Call(Finance, request), Call(Compliance, request), Call(Marketing, request)]
  }

  /** The finance-and-compliance stage and what follows it, after the
      technical stage made `calls`. */
  function ContinueFlow(d: Departments, s: OrganizationState, calls: seq<Call>): (r: FlowRun)
    ensures |calls| + 1 <= |r.calls| <= |calls| + 3
    ensures r.calls == calls + LaterCalls(s.ceoRequest)[..|r.calls| - |calls|]
    ensures r.result.Failure? ==> r.written.None?
    ensures r.result.Success? ==> r.result.value == s.finalReportPath
  {
    var fc := RunFinanceAndCompliance(d, s);
    if fc.error.Some? then Stopped(fc, calls)
    else FinishFlow(d, fc.state, calls + fc.calls)
  }

  /** `run_flow(request)`: the stages in their fixed order, each starting only
      once the one before has completed. `finalize` writes the report to the
      state's path and returns that path. */
  function RunFlow(d: Departments, request: string): (r: FlowRun)
    ensures |r.calls| <= 4
    ensures r.result.Failure? ==> r.written.None?
    ensures r.result.Success? ==> r.result.value == DefaultReportPath
  {
    var t := RunTechnical(d, InitialState(request));
    if t.error.Some? then Stopped(t, [])
    else ContinueFlow(d, t.state, t.calls)
  }

  /** The crews run in the fixed order technical, finance, compliance,
      marketing, each at most once, and a failure stops the rest: the runs
      made are always a prefix of the full sequence. */
  lemma FlowCallsInOrder(d: Departments, request: string)
    ensures RunFlow(d, request).calls == ExpectedCalls(request)[..|RunFlow(d, request).calls|]
  {
    if RunTechnical(d, InitialState(request)).error.Some? {
      CallsWhenTechnicalStops(d, request);
    } else {
      CallsAfterTechnical(d, request);
    }
  }

  lemma CallsWhenTechnicalStops(d: Departments, request: string)
    requires RunTechnical(d, InitialState(request)).error.Some?
    ensures RunFlow(d, request).calls == ExpectedCalls(request)[..|RunFlow(d, request).calls|]
  {
    var t := RunTechnical(d, InitialState(request));
    assert RunFlow(d, request).calls == t.calls;
    ConsPrefix(Call(Technical, Strip(request)), LaterCalls(request), 0);
  }

  lemma CallsAfterTechnical(d: Departments, request: string)
    requires RunTechnical(d, InitialState(request)).error.None?
    ensures RunFlow(d, request).calls == ExpectedCalls(request)[..|RunFlow(d, request).calls|]
  {
    var t := RunTechnical(d, InitialState(request));
    assert t.calls == [Call(Technical, Strip(request))] && t.state.ceoRequest == request;
    assert RunFlow(d, request) == ContinueFlow(d, t.state, t.calls);
    ContinuePrefix(d, t.state, Call(Technical, Strip(request)));
  }

  /** After a first run `x`, the later stages extend the runs made by a
      prefix of the remaining fixed sequence. */
  lemma ContinuePrefix(d: Departments, s: OrganizationState, x: Call)
    ensures ContinueFlow(d, s, [x]).calls == ([x] + LaterCalls(s.ceoRequest))[..|ContinueFlow(d, s, [x]).calls|]
  {
    var c := ContinueFlow(d, s, [x]);
    ConsPrefix(x, LaterCalls(s.ceoRequest), |c.calls| - 1);
  }

  lemma ConsPrefix<T>(x: T, ys: seq<T>, k: nat)
    requires k <= |ys|
    ensures ([x] + ys)[..k + 1] == [x] + ys[..k]
    ensures ([x] + ys)[..0] == []
  {
  }

  /** The flow completes exactly when the request is not blank, every crew
      answers, and `finalize` writes the report. */
  lemma FlowSucceeds(d: Departments, request: string)
    ensures RunFlow(d, request).result.Success? <==>
      Strip(request) != [] && AllCrewsSucceed(d, request) && ReportWritten(d, FinalState(d, request))
  {
    if Strip(request) != [] && AllCrewsSucceed(d, request) {
      FlowOutputs(d, request);
    }
    var t := RunTechnical(d, InitialState(request));
    if t.error.None? {
      assert t.state.ceoRequest == request;
      var fc := RunFinanceAndCompliance(d, t.state);
      assert RunFlow(d, request) == if fc.error.Some? then Stopped(fc, t.calls) else FinishFlow(d, fc.state, t.calls + fc.calls);
    }
  }

  /** A completed flow has run all four crews, in order, and written the
      report to the default path. */
  lemma FlowCompletes(d: Departments, request: string)
    requires Strip(request) != [] && AllCrewsSucceed(d, request) && ReportWritten(d, FinalState(d, request))
    ensures RunFlow(d, request).calls == ExpectedCalls(request)
    ensures RunFlow(d, request).result == Success(DefaultReportPath)
    ensures RunFlow(d, request).written == Some((DefaultReportPath, Report(RunFlow(d, request).state)))
  {
    var t := RunTechnical(d, InitialState(request));
    assert t.state.ceoRequest == request && t.calls == [Call(Technical, Strip(request))];
    var fc := RunFinanceAndCompliance(d, t.state);
    assert fc.calls == [Call(Finance, request), Call(Compliance, request)];
    assert RunFlow(d, request) == FinishFlow(d, fc.state, t.calls + fc.calls);
    FlowOutputs(d, request);
    ExpectedSplit(request);
  }

  /** When every crew answers but the report cannot be written, all four
      crews have run, nothing is written, and the flow fails with the
      write's OSError. */
  lemma ReportWriteFails(d: Departments, request: string)
    requires Strip(request) != [] && AllCrewsSucceed(d, request) && !ReportWritten(d, FinalState(d, request))
    ensures RunFlow(d, request).calls == ExpectedCalls(request)
    ensures RunFlow(d, request).written.None?
    ensures RunFlow(d, request).state == FinalState(d, request)
    ensures RunFlow(d, request).result ==
      Failure(ReportWriteFailed(d.writeReport(DefaultReportPath, Report(FinalState(d, request))).value))
  {
    var t := RunTechnical(d, InitialState(request));
    assert t.state.ceoRequest == request && t.calls == [Call(Technical, Strip(request))];
    var fc := RunFinanceAndCompliance(d, t.state);
    assert fc.calls == [Call(Finance, request), Call(Compliance, request)];
    assert RunFlow(d, request) == FinishFlow(d, fc.state, t.calls + fc.calls);
    FlowOutputs(d, request);
    ExpectedSplit(request);
  }

  lemma ExpectedSplit(request: string)
    ensures [Call(Technical, Strip(request))] + [Call(Finance, request), Call(Compliance, request)] + [Call(Marketing, request)]
      == ExpectedCalls(request)
  {
  }

  /** A completed flow holds each crew's answer in its own field, the request
      as given, and the default report path. */
  lemma FlowOutputs(d: Departments, request: string)
    requires Strip(request) != [] && AllCrewsSucceed(d, request)
    ensures RunFlow(d, request).state == OrganizationState(
      request,
      d.technical(Strip(request)).value,
      d.finance(request).value,
      d.compliance(request).value,
      d.marketing(request).value,
      DefaultReportPath)
    ensures RunFlow(d, request).state == FinalState(d, request)
  {
  }

  /** What crew run `call` answered. */
  function Answer(d: Departments, call: Call): Result<string, CrewError> {
    match call.crew
    case Technical => d.technical(call.input)
    case Finance => d.finance(call.input)
    case Compliance => d.compliance(call.input)
    case Marketing => d.marketing(call.input)
  }

  /** Every run in `calls` answered. */
  predicate AllAnswered(d: Departments, calls: seq<Call>) {
    forall i :: 0 <= i < |calls| ==> Answer(d, calls[i]).Success?
  }

  /** The last run in `calls` is crew `c`'s and failed with `e`, and every
      run before it answered. */
  predicate EndsInFailure(d: Departments, calls: seq<Call>, c: CrewKind, e: CrewError) {
    && calls != []
    && calls[|calls| - 1].crew == c
    && Answer(d, calls[|calls| - 1]) == Failure(e)
    && AllAnswered(d, calls[..|calls| - 1])
  }

  /** A crew failure ends the flow: the crew that failed made the last run,
      it failed with the error the flow reports, and every run before it
      answered. */
  lemma FailureStopsFlow(d: Departments, request: string, c: CrewKind, e: CrewError)
    requires RunFlow(d, request).result == Failure(CrewFailed(c, e))
    ensures EndsInFailure(d, RunFlow(d, request).calls, c, e)
  {
    if RunTechnical(d, InitialState(request)).error.Some? {
      TechnicalFails(d, request, c, e);
    } else {
      TechnicalAnswers(d, request, c, e);
    }
  }

  lemma TechnicalFails(d: Departments, request: string, c: CrewKind, e: CrewError)
    requires RunTechnical(d, InitialState(request)).error == Some(CrewFailed(c, e))
    ensures EndsInFailure(d, RunTechnical(d, InitialState(request)).calls, c, e)
  {
    var x := Call(Technical, Strip(request));
    assert RunTechnical(d, InitialState(request)).calls == [x];
    assert [x][..0] == [];
  }

  lemma TechnicalAnswers(d: Departments, request: string, c: CrewKind, e: CrewError)
    requires RunTechnical(d, InitialState(request)).error.None?
    requires RunFlow(d, request).result == Failure(CrewFailed(c, e))
    ensures EndsInFailure(d, RunFlow(d, request).calls, c, e)
  {
    var t := RunTechnical(d, InitialState(request));
    var x := Call(Technical, Strip(request));
    assert t.calls == [x];
    assert AllAnswered(d, [x]);
    assert RunFlow(d, request) == ContinueFlow(d, t.state, [x]);
    ContinueFails(d, t.state, [x], c, e);
  }

  lemma ContinueFails(d: Departments, s: OrganizationState, calls: seq<Call>, c: CrewKind, e: CrewError)
    requires AllAnswered(d, calls)
    requires ContinueFlow(d, s, calls).result == Failure(CrewFailed(c, e))
    ensures EndsInFailure(d, ContinueFlow(d, s, calls).calls, c, e)
  {
    var fc := RunFinanceAndCompliance(d, s);
    var f := Call(Finance, s.ceoRequest);
    var g := Call(Compliance, s.ceoRequest);
    if fc.error.Some? {
      if d.finance(s.ceoRequest).Failure? {
        assert fc.calls == [f] && [f][..0] == [];
      } else {
        assert fc.calls == [f, g] && [f, g][..1] == [f];
      }
      AppendFailure(d, calls, fc.calls, c, e);
    } else {
      assert fc.calls == [f, g] && fc.state.ceoRequest == s.ceoRequest;
      assert AllAnswered(d, [f, g]);
      AppendAnswered(d, calls, [f, g]);
      FinishFails(d, fc.state, calls + [f, g], c, e);
    }
  }

  lemma FinishFails(d: Departments, s: OrganizationState, calls: seq<Call>, c: CrewKind, e: CrewError)
    requires AllAnswered(d, calls)
    requires FinishFlow(d, s, calls).result == Failure(CrewFailed(c, e))
    ensures EndsInFailure(d, FinishFlow(d, s, calls).calls, c, e)
  {
    var m := Call(Marketing, s.ceoRequest);
    assert RunMarketing(d, s).error.Some?;
    assert [m][..0] == [];
    AppendFailure(d, calls, [m], c, e);
  }

  lemma AppendAnswered(d: Departments, prev: seq<Call>, calls: seq<Call>)
    requires AllAnswered(d, prev) && AllAnswered(d, calls)
    ensures AllAnswered(d, prev + calls)
  {
    forall i | 0 <= i < |prev + calls|
      ensures Answer(d, (prev + calls)[i]).Success?
    {
      if i >= |prev| {
        assert (prev + calls)[i] == calls[i - |prev|];
      }
    }
  }

  lemma AppendFailure(d: Departments, prev: seq<Call>, calls: seq<Call>, c: CrewKind, e: CrewError)
    requires AllAnswered(d, prev) && EndsInFailure(d, calls, c, e)
    ensures EndsInFailure(d, prev + calls, c, e)
  {
    var n := |calls| - 1;
    assert (prev + calls)[..|prev| + n] == prev + calls[..n];
    AppendAnswered(d, prev, calls[..n]);
  }

  /** The flow reports a missing request exactly when the stripped request
      is empty, and then no crew has run. */
  lemma RequestRequiredOnlyWhenBlank(d: Departments, request: string)
    ensures RunFlow(d, request).result == Failure(RequestRequired) <==> Strip(request) == []
    ensures RunFlow(d, request).result == Failure(RequestRequired) ==> RunFlow(d, request).calls == []
  {
  }

  /** An empty or all-whitespace request fails before any crew runs and leaves
      every output empty. */
  lemma EmptyRequestRunsNoCrew(d: Departments, request: string)
    requires forall i :: 0 <= i < |request| ==> IsSpace(request[i])
    ensures RunFlow(d, request).calls == []
    ensures RunFlow(d, request).result == Failure(RequestRequired)
    ensures RunFlow(d, request).written.None?
    ensures RunFlow(d, request).state == InitialState(request)
  {
  }

  /** What the command line produced: the usage text, or the completion line
      with the flow run, or the error the flow raised (which leaves `main`
      uncaught). */
  datatype CliOutcome =
    | Usage(message: string)
    | Completed(message: string, run: FlowRun)
    | Crashed(error: FlowError, run: FlowRun)
  {
    /** The process exit status: `main`'s return value, or 1 for an uncaught
        exception. */
    function ExitCode(): int {
      if Completed? then 0 else 1
    }
  }

  const UsageMessage: string := "Usage: python -m company_ai.main \"CEO request here\""

  /** `main()` with `sys.argv` as `argv`. */
  function CliMain(argv: seq<string>, d: Departments): (r: CliOutcome)
    ensures |argv| < 2 <==> r.Usage?
    ensures r.Usage? ==> r.ExitCode() == 1
    ensures |argv| >= 2 ==> r.run == RunFlow(d, Strip(Join(" ", argv[1..])))
    ensures r.Completed? <==> r.ExitCode() == 0
    ensures |argv| >= 2 ==> (r.Completed? <==> r.run.result.Success?)
    ensures r.Completed? ==> r.message == "Flow completed. Final report: " + DefaultReportPath
    ensures r.Crashed? ==> r.run.result == Failure(r.error)
    ensures r.Usage? ==> r.message == UsageMessage
  {
    if |argv| < 2 then Usage(UsageMessage)
    else
      var request := Strip(Join(" ", argv[1..]));
      var run := RunFlow(d, request);
      match run.result
      case Success(path) => Completed("Flow completed. Final report: " + path, run)
      case Failure(e) => Crashed(e, run)
  }

  /** From the command line, the exit status is 0 exactly when the joined,
      stripped arguments are not blank, every crew answers and the report is
      written. */
  lemma CliExitStatus(argv: seq<string>, d: Departments)
    requires |argv| >= 2
    ensures
      var request := Strip(Join(" ", argv[1..]));
      CliMain(argv, d).ExitCode() == 0 <==>
        request != [] && AllCrewsSucceed(d, request) && ReportWritten(d, FinalState(d, request))
  {
    var request := Strip(Join(" ", argv[1..]));
    StripIdempotent(Join(" ", argv[1..]));
    FlowSucceeds(d, request);
  }

  /** The technical crew, when it runs, gets the stripped request; every
      later crew gets the request as stored. */
  lemma CallInputs(d: Departments, request: string)
    ensures forall i :: 0 <= i < |RunFlow(d, request).calls| ==>
      RunFlow(d, request).calls[i].input == if i == 0 then Strip(request) else request
  {
    FlowCallsInOrder(d, request);
    PrefixInputs(RunFlow(d, request).calls, request);
  }

  lemma PrefixInputs(calls: seq<Call>, request: string)
    requires |calls| <= 4 && calls == ExpectedCalls(request)[..|calls|]
    ensures forall i :: 0 <= i < |calls| ==> calls[i].input == if i == 0 then Strip(request) else request
  {
    var expected := ExpectedCalls(request);
    ExpectedInputs(request);
    forall i | 0 <= i < |calls|
      ensures calls[i].input == if i == 0 then Strip(request) else request
    {
      assert calls[i] == expected[..|calls|][i];
    }
  }

  /** The technical crew gets the stripped request, the others the request
      as stored. */
  lemma ExpectedInputs(request: string)
    ensures |ExpectedCalls(request)| == 4
    ensures ExpectedCalls(request)[0].input == Strip(request)
    ensures forall i :: 1 <= i < 4 ==> ExpectedCalls(request)[i].input == request
  {
  }

  /** A request already stripped reaches every crew unchanged. */
  lemma StrippedRequestReachesAll(d: Departments, request: string)
    requires Strip(request) == request
    ensures forall i :: 0 <= i < |RunFlow(d, request).calls| ==> RunFlow(d, request).calls[i].input == request
  {
    CallInputs(d, request);
  }

  /** From the command line, every crew receives the same text: the joined
      arguments, stripped (stripping again in the technical stage changes
      nothing). */
  lemma CliCrewsShareRequest(argv: seq<string>, d: Departments)
    requires |argv| >= 2
    ensures forall i :: 0 <= i < |CliMain(argv, d).run.calls| ==>
      CliMain(argv, d).run.calls[i].input == Strip(Join(" ", argv[1..]))
  {
    StripIdempotent(Join(" ", argv[1..]));
    StrippedRequestReachesAll(d, Strip(Join(" ", argv[1..])));
  }
}

=== FILE: internet_tools.dfy ===
/** The deterministic parts of the two internet tools: argument guards and
    clamps, the timeout read from the environment, and the assembly of search
    results from a provider's answer. The network, the environment, the HTML
    scraping regular expressions, HTML stripping, entity unescaping and query
    string parsing are parameters. */
module InternetTools {
  import opened Wrappers
  import opened Text
  import opened PyInt
  import opened Tools

  const DefaultTimeoutSeconds: int := 15
  const DefaultMaxResults: int := 5
  const DefaultMaxChars: int := 12000

  /** `max(lo, min(v, hi))`. */
  function Clamp(lo: int, hi: int, v: int): (r: int)
    requires lo <= hi
    ensures lo <= r <= hi
    ensures lo <= v <= hi ==> r == v
    ensures v < lo ==> r == lo
    ensures v > hi ==> r == hi
  {
    if v > hi then hi else if v < lo then lo else v
  }

  function Min(a: int, b: int): int {
    if a <= b then a else b
  }

  /** `_timeout_seconds()`: the INTERNET_TOOL_TIMEOUT_SECONDS value (`None`
      when unset), parsed with `int` and clamped to 3..60; unparsable text
      falls back to 15. */
  function TimeoutSeconds(env: Option<string>): (r: int)
    ensures 3 <= r <= 60
    ensures ParseInt(env.ValueOr(IntToString(DefaultTimeoutSeconds))).None? ==> r == DefaultTimeoutSeconds
    ensures env.None? ==> r == DefaultTimeoutSeconds
  {
    var raw := env.ValueOr(IntToString(DefaultTimeoutSeconds));
    ParseShow(DefaultTimeoutSeconds);
    match ParseInt(raw)
    case None => DefaultTimeoutSeconds
    case Some(t) => Clamp(3, 60, t)
  }

  /** A number written in decimal is clamped into 3..60, unless its numeral
      has more than 4300 digits, which `int` refuses. */
  lemma TimeoutOfNumber(n: int)
    ensures |NatToString(Magnitude(n))| <= MaxStrDigits ==> TimeoutSeconds(Some(IntToString(n))) == Clamp(3, 60, n)
    ensures 3 <= n <= 60 ==> TimeoutSeconds(Some(IntToString(n))) == n
    ensures |NatToString(Magnitude(n))| > MaxStrDigits ==> TimeoutSeconds(Some(IntToString(n))) == DefaultTimeoutSeconds
  {
    ParseShow(n);
  }

  /** `_extract_ddg_redirect(raw_url)`, given the parsed query string of
      `raw_url` (`parse_qs(urlparse(raw_url).query)`). */
  function ExtractDdgRedirect(rawUrl: string, query: map<string, seq<string>>): (r: string)
    ensures ("uddg" in query && |query["uddg"]| > 0) ==> r == query["uddg"][0]
    ensures !("uddg" in query && |query["uddg"]| > 0) ==> r == rawUrl
  {
    if "uddg" in query && |query["uddg"]| > 0 then query["uddg"][0] else rawUrl
  }

  /** The map `parse_qs` builds from the query's `key=value` pairs, in order:
      each key lists its non-blank values in the order they appear, and a
      pair with a blank value is dropped (`keep_blank_values` is off). */
  function GroupQuery(pairs: seq<(string, string)>): (q: map<string, seq<string>>)
    ensures forall k :: k in q ==> |q[k]| > 0
    decreases |pairs|
  {
    if pairs == [] then map[]
    else
      var rest := GroupQuery(pairs[..|pairs| - 1]);
      var (k, v) := pairs[|pairs| - 1];
      if v == "" then rest
      else rest[k := (if k in rest then rest[k] else []) + [v]]
  }

  /** Pair `i` gives `key` a value that `parse_qs` keeps. */
  predicate Keeps(pairs: seq<(string, string)>, i: int, key: string)
    requires 0 <= i < |pairs|
  {
    pairs[i].0 == key && pairs[i].1 != ""
  }

  /** A key is in the grouped map exactly when some pair keeps a value for
      it, and its first value is the one the earliest such pair carries. */
  lemma {:induction false} GroupQueryFirst(pairs: seq<(string, string)>, key: string)
    ensures key in GroupQuery(pairs) <==> exists i :: 0 <= i < |pairs| && Keeps(pairs, i, key)
    ensures forall i :: 0 <= i < |pairs| && Keeps(pairs, i, key) && (forall j :: 0 <= j < i ==> !Keeps(pairs, j, key)) ==>
      key in GroupQuery(pairs) && GroupQuery(pairs)[key][0] == pairs[i].1
    decreases |pairs|
  {
    if pairs != [] {
      var init := pairs[..|pairs| - 1];
      var last := |pairs| - 1;
      GroupQueryFirst(init, key);
      assert forall i :: 0 <= i < last ==> (Keeps(pairs, i, key) <==> Keeps(init, i, key));
      if Keeps(pairs, last, key) {
        assert key in GroupQuery(pairs);
      } else {
        assert key in GroupQuery(pairs) <==> key in GroupQuery(init);
        if key in GroupQuery(init) {
          var i :| 0 <= i < |init| && Keeps(init, i, key);
          assert Keeps(pairs, i, key);
        }
      }
    }
  }

  /** `_extract_ddg_redirect` on a query string made of `pairs`: the first
      non-blank `uddg` value when there is one, else the URL unchanged. */
  lemma RedirectFirstUddg(rawUrl: string, pairs: seq<(string, string)>)
    ensures (forall i :: 0 <= i < |pairs| ==> !Keeps(pairs, i, "uddg")) ==>
      ExtractDdgRedirect(rawUrl, GroupQuery(pairs)) == rawUrl
    ensures forall i :: 0 <= i < |pairs| && Keeps(pairs, i, "uddg") && (forall j :: 0 <= j < i ==> !Keeps(pairs, j, "uddg")) ==>
      ExtractDdgRedirect(rawUrl, GroupQuery(pairs)) == pairs[i].1
  {
    GroupQueryFirst(pairs, "uddg");
  }

  datatype SearchResult = SearchResult(title: string, url: string, snippet: string)

  /** The JSON object `internet_search` returns, by shape. */
  datatype SearchOutput =
    | SearchRejected(error: string)
    | SearchFailed(error: string, query: string)
    | SearchResults(provider: string, query: string, results: seq<SearchResult>)

  /** A decoded Serper answer: the `organic` list when the key is present,
      each item a JSON object with string fields. */
  datatype SerperPayload = SerperPayload(organic: Option<seq<map<string, string>>>)

  /** What the two scraping regular expressions find in DuckDuckGo's HTML page:
      `(href, inner html)` per result link, and the inner html of each snippet. */
  datatype DdgPage = DdgPage(links: seq<(string, string)>, snippets: seq<string>)

  /** A fetched web page: the body decoded as UTF-8 and the Content-Type header. */
  datatype Fetched = Fetched(body: string, contentType: string)

  /** Everything the tools obtain from outside: network calls (each given the
      timeout it is opened with; a failure carries the exception text) and the
      text-processing helpers that are not modelled. */
  datatype Web = Web(
    serper: (string, int, string, int) -> Result<SerperPayload, string>,
    duckduckgo: (string, int) -> Result<DdgPage, string>,
    fetch: (string, int) -> Result<Fetched, string>,
    stripHtml: string -> string,
    unescape: string -> string,
    parseQuery: string -> map<string, seq<string>>)

  /** The environment variables the tools read. */
  datatype Env = Env(serperApiKey: Option<string>, timeout: Option<string>)

  /** `item.get(key, "")`. */
  function Field(item: map<string, string>, key: string): string {
    if key in item then item[key] else ""
  }

  /** `_search_serper`: at most `maxResults` organic results, in order, with
      missing fields read as empty text. */
  function SearchSerper(query: string, maxResults: int, apiKey: string, timeout: int, web: Web): (r: Result<SearchOutput, string>)
    requires maxResults >= 1
    ensures web.serper(query, maxResults, apiKey, timeout).Failure? <==> r.Failure?
    ensures r.Success? ==>
      var organic := web.serper(query, maxResults, apiKey, timeout).value.organic.ValueOr([]);
      && r.value.SearchResults?
      && r.value.provider == "serper"
      && r.value.query == query
      && |r.value.results| == Min(maxResults, |organic|)
      && forall i :: 0 <= i < |r.value.results| ==>
           r.value.results[i] == SearchResult(Field(organic[i], "title"), Field(organic[i], "link"), Field(organic[i], "snippet"))
  {
    var payload :- web.serper(query, maxResults, apiKey, timeout);
    var organic := payload.organic.ValueOr([]);
    var items := organic[..Min(maxResults, |organic|)];
    var results := seq(|items|, i requires 0 <= i < |items| =>
      SearchResult(Field(items[i], "title"), Field(items[i], "link"), Field(items[i], "snippet")));
    Success(SearchResults("serper", query, results))
  }

  /** `_search_duckduckgo`: one result per link match, at most `maxResults`;
      result `i` takes snippet `i`, or empty text when there are fewer snippets. */
  function SearchDuckDuckGo(query: string, maxResults: int, timeout: int, web: Web): (r: Result<SearchOutput, string>)
    requires maxResults >= 1
    ensures web.duckduckgo(query, timeout).Failure? <==> r.Failure?
    ensures r.Success? ==>
      var page := web.duckduckgo(query, timeout).value;
      && r.value.SearchResults?
      && r.value.provider == "duckduckgo"
      && r.value.query == query
      && |r.value.results| == Min(maxResults, |page.links|)
      && forall i :: 0 <= i < |r.value.results| ==>
           && r.value.results[i].title == web.stripHtml(page.links[i].1)
           && r.value.results[i].url == ExtractDdgRedirect(web.unescape(page.links[i].0), web.parseQuery(web.unescape(page.links[i].0)))
           && r.value.results[i].snippet == (if i < |page.snippets| then web.stripHtml(page.snippets[i]) else "")
  {
    var page :- web.duckduckgo(query, timeout);
    var snippets := seq(|page.snippets|, i requires 0 <= i < |page.snippets| => web.stripHtml(page.snippets[i]));
    var links := page.links[..Min(maxResults, |page.links|)];
    var results := seq(|links|, i requires 0 <= i < |links| =>
      var href := web.unescape(links[i].0);
      SearchResult(
        web.stripHtml(links[i].1),
        ExtractDdgRedirect(href, web.parseQuery(href)),
        if i < |snippets| then snippets[i] else ""));
    Success(SearchResults("duckduckgo", query, results))
  }

  /** Asking Serper for more results only extends the list, provided the
      provider answers the same; once `n` covers every organic result,
      asking for more changes nothing. */
  lemma SerperMonotone(query: string, n: int, m: int, apiKey: string, timeout: int, web: Web)
    requires 1 <= n <= m
    requires web.serper(query, n, apiKey, timeout) == web.serper(query, m, apiKey, timeout)
    ensures
      var small, large := SearchSerper(query, n, apiKey, timeout, web), SearchSerper(query, m, apiKey, timeout, web);
      && (small.Success? <==> large.Success?)
      && (small.Success? ==>
            && |small.value.results| <= |large.value.results|
            && small.value.results == large.value.results[..|small.value.results|]
            && (n >= |web.serper(query, n, apiKey, timeout).value.organic.ValueOr([])| ==> small == large))
  {
    var small, large := SearchSerper(query, n, apiKey, timeout, web), SearchSerper(query, m, apiKey, timeout, web);
    if small.Success? {
      assert small.value.results == large.value.results[..|small.value.results|];
    }
  }

  /** The DuckDuckGo page does not depend on how many results are wanted, so
      asking for more only extends the list, and once `n` covers every link
      match asking for more changes nothing. */
  lemma DuckDuckGoMonotone(query: string, n: int, m: int, timeout: int, web: Web)
    requires 1 <= n <= m
    ensures
      var small, large := SearchDuckDuckGo(query, n, timeout, web), SearchDuckDuckGo(query, m, timeout, web);
      && (small.Success? <==> large.Success?)
      && (small.Success? ==>
            && |small.value.results| <= |large.value.results|
            && small.value.results == large.value.results[..|small.value.results|]
            && (n >= |web.duckduckgo(query, timeout).value.links| ==> small == large))
  {
    var small, large := SearchDuckDuckGo(query, n, timeout, web), SearchDuckDuckGo(query, m, timeout, web);
    if small.Success? {
      assert small.value.results == large.value.results[..|small.value.results|];
    }
  }

  /** The `try` block of `InternetSearchTool._run`: Serper when an API key is
      set, DuckDuckGo otherwise. */
  function Provide(query: string, n: int, apiKey: string, timeout: int, web: Web): (r: Result<SearchOutput, string>)
    requires n >= 1
    ensures apiKey != [] ==> r == SearchSerper(query, n, apiKey, timeout, web)
    ensures apiKey == [] ==> r == SearchDuckDuckGo(query, n, timeout, web)
    ensures r.Success? ==>
      && r.value.SearchResults?
      && r.value.query == query
      && |r.value.results| <= n
      && (r.value.provider == "serper" <==> apiKey != [])
  {
    if apiKey != [] then SearchSerper(query, n, apiKey, timeout, web)
    else SearchDuckDuckGo(query, n, timeout, web)
  }

  /** `InternetSearchTool._run`. */
  function InternetSearch(query: string, maxResults: int, env: Env, web: Web): (r: SearchOutput)
    ensures Strip(query) == [] <==> r.SearchRejected?
    ensures r.SearchRejected? ==> r.error == "query cannot be empty"
    ensures r.SearchResults? ==> r.query == Strip(query)
    ensures r.SearchResults? ==> |r.results| <= Clamp(1, 10, maxResults)
    ensures r.SearchFailed? ==> r.query == Strip(query) && StartsWith(r.error, "internet_search failed: ")
    ensures r.SearchResults? ==> (r.provider == "serper" <==> Strip(env.serperApiKey.ValueOr("")) != [])
  {
    var q := Strip(query);
    if q == [] then SearchRejected("query cannot be empty")
    else
      var n := Clamp(1, 10, maxResults);
      var apiKey := Strip(env.serperApiKey.ValueOr(""));
      var timeout := TimeoutSeconds(env.timeout);
      match Provide(q, n, apiKey, timeout, web)
      case Success(output) => output
      case Failure(e) => SearchFailed("internet_search failed: " + e, q)
  }

  /** An empty query is answered without consulting any provider: the outcome
      is the same whatever the network would have answered. */
  lemma EmptyQueryNoSearch(query: string, maxResults: int, env: Env, web1: Web, web2: Web)
    requires Strip(query) == []
    ensures InternetSearch(query, maxResults, env, web1) == InternetSearch(query, maxResults, env, web2)
  {
  }

  /** The provider is always asked for between 1 and 10 results. */
  lemma SearchRequestClamped(query: string, maxResults: int, env: Env, web: Web)
    requires Strip(query) != []
    ensures
      var n := Clamp(1, 10, maxResults);
      var apiKey := Strip(env.serperApiKey.ValueOr(""));
      var timeout := TimeoutSeconds(env.timeout);
      && 1 <= n <= 10
      && 3 <= timeout <= 60
      && InternetSearch(query, maxResults, env, web) ==
           match (if apiKey != [] then SearchSerper(Strip(query), n, apiKey, timeout, web)
                  else SearchDuckDuckGo(Strip(query), n, timeout, web))
           case Success(o) => o
           case Failure(e) => SearchFailed("internet_search failed: " + e, Strip(query))
  {
  }

  /** The object `read_webpage` returns, by shape. */
  datatype PageOutput =
    | PageRejected(error: string)
    | PageFailed(error: string, url: string)
    | PageExcerpt(url: string, contentType: string, contentChars: nat, excerpt: string)

  /** The scheme guard: after `strip()`, the URL starts with `http://` or
      `https://`, ignoring case. */
  predicate HttpUrl(url: string)
  {
    StartsWith(LowerAscii(url), "http://") || StartsWith(LowerAscii(url), "https://")
  }

  /** The readable text of a fetched page: HTML is stripped when the content
      type says `text/html` (any case), other bodies are kept as decoded. */
  function PageText(f: Fetched, web: Web): string {
    if Contains(LowerAscii(f.contentType), "text/html") then web.stripHtml(f.body) else f.body
  }

  /** `r` reports `text`: its full length, and its first `max_chars`
      characters with `max_chars` clamped to 1000..30000. */
  predicate IsExcerpt(r: PageOutput, text: string, maxChars: int)
    requires r.PageExcerpt?
  {
    && r.contentChars == |text|
    && |r.excerpt| == Min(Clamp(1000, 30000, maxChars), |text|)
    && r.excerpt == text[..|r.excerpt|]
  }

  /** `ReadWebpageTool._run`. */
  function ReadWebpage(url: string, maxChars: int, timeoutEnv: Option<string>, web: Web): (r: PageOutput)
    ensures r.PageRejected? <==> !HttpUrl(Strip(url))
    ensures r.PageRejected? ==> r.error == "url must start with http:// or https://"
    ensures r.PageExcerpt? ==>
      && r.url == Strip(url)
      && web.fetch(r.url, TimeoutSeconds(timeoutEnv)).Success?
      && IsExcerpt(r, PageText(web.fetch(r.url, TimeoutSeconds(timeoutEnv)).value, web), maxChars)
    ensures r.PageExcerpt? ==> |r.excerpt| <= 30000
    ensures r.PageFailed? ==> r.url == Strip(url) && StartsWith(r.error, "read_webpage failed: ")
    ensures HttpUrl(Strip(url)) && web.fetch(Strip(url), TimeoutSeconds(timeoutEnv)).Success? ==>
      r == ExcerptOf(Strip(url), web.fetch(Strip(url), TimeoutSeconds(timeoutEnv)).value, maxChars, web)
    ensures HttpUrl(Strip(url)) && web.fetch(Strip(url), TimeoutSeconds(timeoutEnv)).Failure? ==>
      r == PageFailed("read_webpage failed: " + web.fetch(Strip(url), TimeoutSeconds(timeoutEnv)).error, Strip(url))
  {
    var u := Strip(url);
    if !HttpUrl(u) then PageRejected("url must start with http:// or https://")
    else
      match web.fetch(u, TimeoutSeconds(timeoutEnv))
      case Failure(e) => PageFailed("read_webpage failed: " + e, u)
      case Success(f) => ExcerptOf(u, f, maxChars, web)
  }

  /** The report on a fetched page: its readable text cut to `max_chars`
      clamped into 1000..30000. */
  function ExcerptOf(url: string, f: Fetched, maxChars: int, web: Web): (r: PageOutput)
    ensures r.PageExcerpt? && r.url == url && r.contentType == f.contentType
    ensures IsExcerpt(r, PageText(f, web), maxChars)
    ensures |r.excerpt| <= 30000
  {
    var text := PageText(f, web);
    PageExcerpt(url, f.contentType, |text|, text[..Min(Clamp(1000, 30000, maxChars), |text|)])
  }

  /** An http(s) URL is fetched once with the configured timeout: a fetch
      that succeeds gives an excerpt of the page at the clamped length, one
      that raises gives the exception's text after "read_webpage failed: ". */
  lemma FetchDecidesPage(url: string, maxChars: int, timeoutEnv: Option<string>, web: Web)
    requires HttpUrl(Strip(url))
    ensures
      var r := ReadWebpage(url, maxChars, timeoutEnv, web);
      var fetched := web.fetch(Strip(url), TimeoutSeconds(timeoutEnv));
      && 3 <= TimeoutSeconds(timeoutEnv) <= 60
      && (r.PageExcerpt? <==> fetched.Success?)
      && (r.PageFailed? <==> fetched.Failure?)
      && (fetched.Success? ==>
            && r.url == Strip(url)
            && r.contentType == fetched.value.contentType
            && IsExcerpt(r, PageText(fetched.value, web), maxChars))
      && (fetched.Failure? ==> r.error == "read_webpage failed: " + fetched.error)
  {
  }

  /** With the default `max_results`, a search returns at most five
      results. */
  lemma DefaultSearchSize(query: string, env: Env, web: Web)
    ensures InternetSearch(query, DefaultMaxResults, env, web).SearchResults? ==>
      |InternetSearch(query, DefaultMaxResults, env, web).results| <= 5
  {
  }

  /** With the default `max_chars`, the excerpt is the first 12000
      characters of the readable text, or all of it when shorter. */
  lemma DefaultExcerptLength(url: string, timeoutEnv: Option<string>, web: Web)
    ensures
      var r := ReadWebpage(url, DefaultMaxChars, timeoutEnv, web);
      r.PageExcerpt? ==> |r.excerpt| == Min(12000, r.contentChars)
  {
  }

  /** A URL failing the scheme guard is answered without fetching anything. */
  lemma RejectedUrlNoFetch(url: string, maxChars: int, timeoutEnv: Option<string>, web1: Web, web2: Web)
    requires !HttpUrl(Strip(url))
    ensures ReadWebpage(url, maxChars, timeoutEnv, web1) == ReadWebpage(url, maxChars, timeoutEnv, web2)
  {
  }

  /** The scheme guard ignores letter case: `HTTPS://` passes as `https://` does. */
  lemma HttpUrlIgnoresCase(url: string, other: string)
    requires |url| == |other|
    requires forall i :: 0 <= i < |url| ==> LowerChar(url[i]) == LowerChar(other[i])
    ensures HttpUrl(url) <==> HttpUrl(other)
  {
    assert LowerAscii(url) == LowerAscii(other);
  }

  /** `build_internet_tools()`: the search tool, then the page reader. */
  function BuildInternetTools(): (r: seq<Tool>)
    ensures |r| == 2 && r[0].Name() == "internet_search" && r[1].Name() == "read_webpage"
    ensures forall t :: t in r <==> t.IsInternetTool()
  {
    [Tool.InternetSearch, Tool.ReadWebpage]
  }
}

=== FILE: legal_tools.dfy ===
/** The contract review and compliance checklist tools of legal_tools.py:
    fixed placeholder records that echo the text they are given. */
module LegalTools {

  /** The JSON record `ContractReviewTool._run` returns. */
  datatype ContractReview = ContractReview(
    documentSummary: string,
    riskLevel: string,
    keyConcerns: seq<string>,
    recommendedActions: seq<string>)

  const KeyConcerns: seq<string> := [
    "Data processing terms need explicit consent language.",
    "Liability limitations should be reviewed against jurisdiction.",
    "Retention policy references need to match internal policy."
  ]

  const RecommendedActions: seq<string> := [
    "Request legal redline review.",
    "Confirm regulatory references are up to date."
  ]

  /** `ContractReviewTool._run(document_summary)`. */
  function ReviewContract(documentSummary: string): (r: ContractReview)
    ensures r.documentSummary == documentSummary
    ensures r.riskLevel == "medium"
    ensures r.keyConcerns == KeyConcerns && r.recommendedActions == RecommendedActions
    ensures |r.keyConcerns| == 3 && forall i, j :: 0 <= i < j < 3 ==> r.keyConcerns[i] != r.keyConcerns[j]
    ensures |r.recommendedActions| == 2 && r.recommendedActions[0] != r.recommendedActions[1]
  {
    ContractReview(documentSummary, "medium", KeyConcerns, RecommendedActions)
  }

  datatype ChecklistItem = ChecklistItem(item: string, status: string)

  /** The JSON record `ComplianceChecklistTool._run` returns. */
  datatype ComplianceChecklist = ComplianceChecklist(scope: string, checklist: seq<ChecklistItem>)

  const ChecklistItems: seq<string> := [
    "Data classification completed",
    "Privacy notice updated",
    "Access controls documented",
    "Audit logging requirements defined",
    "Incident response ownership assigned"
  ]

  /** `ComplianceChecklistTool._run(product_scope)`: every item starts out
      pending. */
  function Checklist(productScope: string): (r: ComplianceChecklist)
    ensures r.scope == productScope
    ensures |r.checklist| == 5
    ensures forall i :: 0 <= i < 5 ==> r.checklist[i].status == "pending"
    ensures forall i :: 0 <= i < 5 ==> r.checklist[i].item == ChecklistItems[i]
    ensures forall i, j :: 0 <= i < j < 5 ==> r.checklist[i].item != r.checklist[j].item
  {
    ComplianceChecklist(productScope, seq(5, i requires 0 <= i < 5 => ChecklistItem(ChecklistItems[i], "pending")))
  }

  /** Apart from the echoed summary, the review does not depend on the
      input. */
  lemma ReviewIgnoresInput(a: string, b: string)
    ensures ReviewContract(a) == ReviewContract(b).(documentSummary := a)
  {
  }

  /** Apart from the echoed scope, the checklist does not depend on the
      input. */
  lemma ChecklistIgnoresInput(a: string, b: string)
    ensures Checklist(a) == Checklist(b).(scope := a)
  {
  }
}

=== FILE: marketing_crew.dfy ===
/** The marketing crew: four agents, each with the two internet tools in front of
    its role tools, and four tasks from the strategy brief to the CMO approval
    gate. Only the brand reviewer holds the claims check, and it alone cannot
    write artifacts. */
module MarketingCrew {
  import opened Wrappers
  import opened Tools
  import opened Crews
  import InternetTools

  const Roles: seq<Role> := [
    Role("cmo", [WriteArtifact]),
    Role("marketing_strategist", [WriteArtifact]),
    Role("copywriter_communications", [WriteArtifact]),
    Role("brand_communications_reviewer", [ClaimsCheck])
  ]

  const TaskKeys: seq<string> := [
    "strategy_brief",
    "announcement_drafting",
    "brand_review",
    "cmo_approval_gate"
  ]

  const Spec: CrewSpec := CrewSpec(Roles, InternetTools.BuildInternetTools(), TaskKeys)

  /** `_build_agents`: `build_internet_tools()` goes in front of every role's tools. */
  function BuildAgents(agents: map<string, AgentCfg>): (r: Result<Roster, CrewError>)
    ensures r.Success? <==> forall i :: 0 <= i < |Roles| ==> AgentConfigured(agents, Roles[i].name)
    ensures r.Success? ==> Names(r.value) == ["cmo", "marketing_strategist", "copywriter_communications", "brand_communications_reviewer"]
    ensures r.Success? ==> ToolLists(r.value) == [
      [InternetSearch, ReadWebpage, WriteArtifact],
      [InternetSearch, ReadWebpage, WriteArtifact],
      [InternetSearch, ReadWebpage, WriteArtifact],
      [InternetSearch, ReadWebpage, ClaimsCheck]]
    ensures r.Success? ==> forall i :: 0 <= i < |r.value| ==>
      |r.value[i].1.tools| >= 2 && r.value[i].1.tools[..2] == InternetTools.BuildInternetTools()
  {
    RolesShape();
    BuildRoster(agents, Roles, InternetTools.BuildInternetTools())
  }

  lemma RolesShape()
    ensures RoleNames(Roles) == ["cmo", "marketing_strategist", "copywriter_communications", "brand_communications_reviewer"]
    ensures forall i :: 0 <= i < |Roles| ==>
      RoleTools(InternetTools.BuildInternetTools(), Roles)[i][..2] == InternetTools.BuildInternetTools()
    ensures RoleTools(InternetTools.BuildInternetTools(), Roles) == [
      [InternetSearch, ReadWebpage, WriteArtifact],
      [InternetSearch, ReadWebpage, WriteArtifact],
      [InternetSearch, ReadWebpage, WriteArtifact],
      [InternetSearch, ReadWebpage, ClaimsCheck]]
  {
    var shared := InternetTools.BuildInternetTools();
    assert shared == [Tool.InternetSearch, Tool.ReadWebpage];
    assert shared + [Tool.WriteArtifact] == [Tool.InternetSearch, Tool.ReadWebpage, Tool.WriteArtifact];
    assert shared + [Tool.ClaimsCheck] == [Tool.InternetSearch, Tool.ReadWebpage, Tool.ClaimsCheck];
  }

  /** The brand reviewer, fourth on the roster, holds the claims check and
      cannot write artifacts. */
  lemma ReviewerTools(agents: map<string, AgentCfg>)
    requires BuildAgents(agents).Success?
    ensures
      var roster := BuildAgents(agents).value;
      && roster[3].0 == "brand_communications_reviewer"
      && Tool.ClaimsCheck in roster[3].1.tools
      && Tool.WriteArtifact !in roster[3].1.tools
  {
    var roster := BuildAgents(agents).value;
    var reviewer := [Tool.InternetSearch, Tool.ReadWebpage, Tool.ClaimsCheck];
    assert Tool.ClaimsCheck == reviewer[2] && Tool.WriteArtifact !in reviewer;
    assert ToolLists(roster)[3] == reviewer;
    assert Names(roster)[3] == roster[3].0;
  }

  /** The other three agents write artifacts and do not hold the claims
      check. */
  lemma WritersTools(agents: map<string, AgentCfg>)
    requires BuildAgents(agents).Success?
    ensures
      var roster := BuildAgents(agents).value;
      forall i :: 0 <= i < 3 ==> Tool.WriteArtifact in roster[i].1.tools && Tool.ClaimsCheck !in roster[i].1.tools
  {
    var roster := BuildAgents(agents).value;
    var writer := [Tool.InternetSearch, Tool.ReadWebpage, Tool.WriteArtifact];
    assert Tool.WriteArtifact == writer[2] && Tool.ClaimsCheck !in writer;
    forall i | 0 <= i < 3
      ensures roster[i].1.tools == writer
    {
      assert roster[i].1.tools == ToolLists(roster)[i];
    }
  }
}

=== FILE: marketing_tools.dfy ===
/** The claims check of marketing_tools.py: five risky-wording patterns, each
    searched for with Python's `re.search(pattern, text, re.IGNORECASE)`,
    kept in declared order when they match. Every pattern is a word boundary,
    a literal, at most one optional character, and a word boundary, so the
    search is modelled directly rather than through a regular-expression
    engine. */
module MarketingTools {
  import opened Wrappers
  import opened Text

  /** `\b<literal>(<optional>)?\b`, with the pattern's own source text. */
  datatype RiskPattern = RiskPattern(source: string, literal: string, optional: Option<char>)

  const Patterns: seq<RiskPattern> := [
    RiskPattern("\\bguarantee(d)?\\b", "guarantee", Some('d')),
    RiskPattern("\\bzero risk\\b", "zero risk", None),
    RiskPattern("\\b100%\\b", "100%", None),
    RiskPattern("\\balways\\b", "always", None),
    RiskPattern("\\bnever fails?\\b", "never fail", Some('s'))
  ]

  const ReplaceClaims: string := "Replace absolute claims with measurable and qualified language."
  const NoRiskyClaims: string := "No obvious risky claims detected."

  /** `\w` of Python's `re` on `str` patterns, for the characters this model
      classifies: ASCII letters, digits and `_`, the Latin-1 alphanumerics,
      and the four non-ASCII letters that case-insensitive matching folds
      onto ASCII letters. */
  predicate IsWordChar(c: char) {
    || ('a' <= c <= 'z')
    || ('A' <= c <= 'Z')
    || ('0' <= c <= '9')
    || c == '_'
    || c == '\U{AA}' || c == '\U{B2}' || c == '\U{B3}' || c == '\U{B5}'
    || c == '\U{B9}' || c == '\U{BA}'
    || ('\U{BC}' <= c <= '\U{BE}')
    || ('\U{C0}' <= c <= '\U{D6}')
    || ('\U{D8}' <= c <= '\U{F6}')
    || ('\U{F8}' <= c <= '\U{FF}')
    || c == '\U{130}' || c == '\U{131}' || c == '\U{17F}' || c == '\U{212A}'
  }

  /** The character a text character is compared as under `re.IGNORECASE`
      when the pattern character is lower-case ASCII, a digit, a space or
      `%`: ASCII upper case lowers, dotted and dotless I fold to `i`, long s
      to `s`, the Kelvin sign to `k`. */
  function Fold(c: char): (f: char)
    ensures ('a' <= f <= 'z') <==>
      ('a' <= c <= 'z' || 'A' <= c <= 'Z' || c == '\U{130}' || c == '\U{131}' || c == '\U{17F}' || c == '\U{212A}')
    ensures f != c ==> IsWordChar(c) && !('a' <= c <= 'z')
  {
    if 'A' <= c <= 'Z' then LowerChar(c)
    else if c == '\U{130}' || c == '\U{131}' then 'i'
    else if c == '\U{17F}' then 's'
    else if c == '\U{212A}' then 'k'
    else c
  }

  /** `\b` at position `i`: exactly one of the characters on either side is
      a word character (outside the text counts as not one). */
  predicate Boundary(t: string, i: nat)
    requires i <= |t|
  {
    (i > 0 && IsWordChar(t[i - 1])) != (i < |t| && IsWordChar(t[i]))
  }

  /** The literal occurs at `i`, compared case-insensitively. */
  predicate LiteralAt(t: string, i: nat, lit: string) {
    && i + |lit| <= |t|
    && forall k :: 0 <= k < |lit| ==> Fold(t[i + k]) == lit[k]
  }

  /** The optional character is present at `e`. */
  predicate OptionalAt(t: string, e: nat, optional: Option<char>) {
    optional.Some? && e < |t| && Fold(t[e]) == optional.value
  }

  /** The pattern matches starting at `i`: the optional character is tried
      first and, when the boundary after it fails, matching backtracks to
      the literal alone. */
  predicate MatchAt(t: string, i: nat, p: RiskPattern)
    requires i <= |t|
  {
    && Boundary(t, i)
    && LiteralAt(t, i, p.literal)
    && var e := i + |p.literal|;
       || (OptionalAt(t, e, p.optional) && Boundary(t, e + 1))
       || Boundary(t, e)
  }

  /** `re.search` from position `i` on. */
  function SearchFrom(t: string, p: RiskPattern, i: nat): (found: bool)
    requires i <= |t|
    ensures found <==> exists j :: i <= j <= |t| && MatchAt(t, j, p)
    decreases |t| - i
  {
    MatchAt(t, i, p) || (i < |t| && SearchFrom(t, p, i + 1))
  }

  predicate Found(t: string, p: RiskPattern) {
    SearchFrom(t, p, 0)
  }

  function Sources(pats: seq<RiskPattern>): (r: seq<string>)
    ensures |r| == |pats| && forall k :: 0 <= k < |pats| ==> r[k] == pats[k].source
  {
    seq(|pats|, k requires 0 <= k < |pats| => pats[k].source)
  }

  predicate Distinct(xs: seq<string>) {
    forall i, j :: 0 <= i < j < |xs| ==> xs[i] != xs[j]
  }

  /** `xs` is `ys` with some elements left out, order kept. */
  predicate IsSubsequence(xs: seq<string>, ys: seq<string>)
    decreases |ys|
  {
    || xs == []
    || (ys != [] && (if xs[0] == ys[0] then IsSubsequence(xs[1..], ys[1..]) else IsSubsequence(xs, ys[1..])))
  }

  /** The list comprehension over the patterns: the sources of those that
      match, in declared order. */
  function Flags(t: string, pats: seq<RiskPattern>): (r: seq<string>)
    requires Distinct(Sources(pats))
    ensures |r| <= |pats|
    ensures IsSubsequence(r, Sources(pats))
    ensures Distinct(r)
    ensures forall x :: x in r ==> x in Sources(pats)
    ensures forall k :: 0 <= k < |pats| ==> (pats[k].source in r <==> Found(t, pats[k]))
    decreases |pats|
  {
    if pats == [] then []
    else
      assert Sources(pats[1..]) == Sources(pats)[1..];
      var rest := Flags(t, pats[1..]);
      assert pats[0].source !in rest by {
        forall k | 0 <= k < |pats[1..]|
          ensures pats[1..][k].source != pats[0].source
        {
          assert Sources(pats)[k + 1] == pats[1..][k].source;
        }
      }
      assert forall k :: 1 <= k < |pats| ==> pats[k] == pats[1..][k - 1];
      if Found(t, pats[0]) then
        var r := [pats[0].source] + rest;
        assert r[1..] == rest;
        r
      else rest
  }

  /** The JSON record `_run` returns. */
  datatype ClaimsReport = ClaimsReport(riskCount: nat, matchedPatterns: seq<string>, recommendation: string)

  lemma PatternsDistinct()
    ensures Distinct(Sources(Patterns))
  {
    var s := Sources(Patterns);
    assert s == [Patterns[0].source, Patterns[1].source, Patterns[2].source, Patterns[3].source, Patterns[4].source];
  }

  /** `ClaimsCheckTool._run(text)`. */
  function ClaimsCheck(text: string): (r: ClaimsReport)
    ensures r.riskCount == |r.matchedPatterns| <= 5
    ensures IsSubsequence(r.matchedPatterns, Sources(Patterns))
    ensures Distinct(r.matchedPatterns)
    ensures forall k :: 0 <= k < 5 ==> (Patterns[k].source in r.matchedPatterns <==> Found(text, Patterns[k]))
    ensures r.recommendation == ReplaceClaims <==> exists k :: 0 <= k < 5 && Found(text, Patterns[k])
    ensures r.recommendation == ReplaceClaims || r.recommendation == NoRiskyClaims
  {
    PatternsDistinct();
    var flags := Flags(text, Patterns);
    assert flags != [] ==> flags[0] in Sources(Patterns);
    ClaimsReport(|flags|, flags, if flags != [] then ReplaceClaims else NoRiskyClaims)
  }

  // Case, boundaries and examples

  /** Two characters the claims check cannot tell apart. */
  predicate Indistinguishable(a: char, b: char) {
    Fold(a) == Fold(b) && IsWordChar(a) == IsWordChar(b)
  }

  /** Characters that differ only in ASCII letter case are indistinguishable. */
  lemma CaseVariantsIndistinguishable(a: char, b: char)
    requires LowerChar(a) == LowerChar(b)
    ensures Indistinguishable(a, b)
  {
  }

  predicate SameUpToCase(t1: string, t2: string) {
    |t1| == |t2| && forall i :: 0 <= i < |t1| ==> LowerChar(t1[i]) == LowerChar(t2[i])
  }

  lemma {:induction false} FlagsAgree(t1: string, t2: string, pats: seq<RiskPattern>)
    requires Distinct(Sources(pats))
    requires forall k :: 0 <= k < |pats| ==> (Found(t1, pats[k]) <==> Found(t2, pats[k]))
    ensures Flags(t1, pats) == Flags(t2, pats)
    decreases |pats|
  {
    if pats != [] {
      assert Sources(pats[1..]) == Sources(pats)[1..];
      assert forall k :: 1 <= k < |pats| ==> pats[k] == pats[1..][k - 1];
      FlagsAgree(t1, t2, pats[1..]);
    }
  }

  /** The check ignores letter case: texts that differ only in the case of
      ASCII letters get the same report. */
  lemma ClaimsCaseInsensitive(t1: string, t2: string)
    requires SameUpToCase(t1, t2)
    ensures ClaimsCheck(t1) == ClaimsCheck(t2)
  {
    forall i | 0 <= i < |t1|
      ensures Indistinguishable(t1[i], t2[i])
    {
      CaseVariantsIndistinguishable(t1[i], t2[i]);
    }
    forall p: RiskPattern, j: nat | j <= |t1|
      ensures MatchAt(t1, j, p) <==> MatchAt(t2, j, p)
    {
      if j + |p.literal| <= |t1| {
        forall k | 0 <= k < |p.literal|
          ensures Fold(t1[j + k]) == p.literal[k] <==> Fold(t2[j + k]) == p.literal[k]
        {
          assert Indistinguishable(t1[j + k], t2[j + k]);
        }
      }
    }
    forall k | 0 <= k < |Patterns|
      ensures Found(t1, Patterns[k]) <==> Found(t2, Patterns[k])
    {
      if Found(t1, Patterns[k]) {
        var j :| 0 <= j <= |t1| && MatchAt(t1, j, Patterns[k]);
        assert MatchAt(t2, j, Patterns[k]);
      }
      if Found(t2, Patterns[k]) {
        var j :| 0 <= j <= |t2| && MatchAt(t2, j, Patterns[k]);
        assert MatchAt(t1, j, Patterns[k]);
      }
    }
    PatternsDistinct();
    FlagsAgree(t1, t2, Patterns);
  }

  /** `\b100%\b` needs a word character right after the `%`, since `%` is
      not one itself. */
  lemma HundredPercentNeedsWordAfter(t: string, j: nat)
    requires j <= |t|
    ensures MatchAt(t, j, Patterns[2]) <==>
      && Boundary(t, j)
      && LiteralAt(t, j, "100%")
      && j + 4 < |t|
      && IsWordChar(t[j + 4])
  {
    if LiteralAt(t, j, "100%") {
      assert Fold(t[j + 3]) == "100%"[3];
    }
  }

  /** A word character right before the word stops `always` from matching. */
  lemma GluedAlwaysNotFlagged()
    ensures !Found("xalways", Patterns[3])
  {
    var t := "xalways";
    forall j | 0 <= j <= |t|
      ensures !MatchAt(t, j, Patterns[3])
    {
      if j == 0 {
        assert Fold(t[0]) != Patterns[3].literal[0];
      } else if j == 1 {
        assert IsWordChar(t[0]) && IsWordChar(t[1]);
      }
    }
  }

  /** Upper case and a following space still flag `always`. */
  lemma CapitalAlwaysFlagged()
    ensures Found("Always on", Patterns[3])
  {
    assert MatchAt("Always on", 0, Patterns[3]);
  }

  /** "guaranteed" flags the first pattern through its optional `d`. */
  lemma GuaranteedFlagged()
    ensures Found("guaranteed", Patterns[0])
  {
    assert MatchAt("guaranteed", 0, Patterns[0]);
  }

  /** "guarantees" flags nothing for the first pattern: neither `d` nor a
      boundary follows the literal. */
  lemma GuaranteesNotFlagged()
    ensures !Found("guarantees", Patterns[0])
  {
    var t := "guarantees";
    forall j | 0 <= j <= |t|
      ensures !MatchAt(t, j, Patterns[0])
    {
      var lit := "guarantee";
      if LiteralAt(t, j, lit) {
        assert Fold(t[j]) == lit[0];
      }
    }
  }
}

=== FILE: py_int.dfy ===
/** Python's `int(text)` for base-10 text, and `str(n)` for integers.

    `int` ignores surrounding whitespace, accepts one optional sign and a
    run of decimal digits in which single underscores may separate digits,
    and refuses a run of more than 4300 digits (the default of
    `sys.int_info.default_max_str_digits`, from Python 3.11 on). */
module PyInt {
  import opened Wrappers
  import opened Text

  predicate IsDigit(c: char) {
    '0' <= c <= '9'
  }

  function DigitValue(c: char): nat
    requires IsDigit(c)
  {
    c as int - '0' as int
  }

  function DigitChar(d: nat): (c: char)
    requires d < 10
    ensures IsDigit(c) && DigitValue(c) == d
  {
    ('0' as int + d) as char
  }

  const MaxStrDigits: nat := 4300

  /** The whitespace `int()` trims. CPython first turns every non-ASCII
      `str.isspace` character into a space and then trims the six ASCII
      spaces, so the separators U+001C..U+001F, which `str.isspace` accepts,
      are not trimmed. */
  predicate IntSpace(c: char) {
    || c == ' '
    || ('\t' <= c <= '\r')
    || (c as int >= 128 && IsSpace(c))
  }

  /** The text after its leading run of `IntSpace` characters. */
  function TrimStart(s: string): (r: string)
    ensures |r| <= |s| && r == s[|s| - |r|..]
    ensures forall i :: 0 <= i < |s| - |r| ==> IntSpace(s[i])
    ensures r != [] ==> !IntSpace(r[0])
    decreases |s|
  {
    if s != [] && IntSpace(s[0]) then TrimStart(s[1..]) else s
  }

  /** The text before its trailing run of `IntSpace` characters. */
  function TrimEnd(s: string): (r: string)
    ensures |r| <= |s| && r == s[..|r|]
    ensures forall i :: |r| <= i < |s| ==> IntSpace(s[i])
    ensures r != [] ==> !IntSpace(r[|r| - 1])
    decreases |s|
  {
    if s != [] && IntSpace(s[|s| - 1]) then TrimEnd(s[..|s| - 1]) else s
  }

  /** The number of digits in a run; underscores do not count. */
  function DigitCount(s: string): (k: nat)
    ensures k <= |s|
    ensures (forall i :: 0 <= i < |s| ==> IsDigit(s[i])) ==> k == |s|
    decreases |s|
  {
    if s == [] then 0
    else DigitCount(s[..|s| - 1]) + (if IsDigit(s[|s| - 1]) then 1 else 0)
  }

  /** Digits, with single underscores allowed between two digits. */
  predicate WellFormedDigits(s: string) {
    && |s| > 0
    && IsDigit(s[0])
    && IsDigit(s[|s| - 1])
    && forall i :: 0 <= i < |s| ==> IsDigit(s[i]) || (s[i] == '_' && i + 1 < |s| && IsDigit(s[i + 1]))
  }

  /** The number a digit run denotes, underscores ignored. */
  function DigitsValue(s: string): nat
    decreases |s|
  {
    if |s| == 0 then 0
    else
      var last := s[|s| - 1];
      var init := DigitsValue(s[..|s| - 1]);
      if IsDigit(last) then init * 10 + DigitValue(last) else init
  }

  /** The digit run of `int`'s argument, after trimming and the sign. */
  function Unsigned(t: string): string {
    if |t| > 0 && (t[0] == '+' || t[0] == '-') then t[1..] else t
  }

  /** `int` of text already trimmed: an optional sign, then a digit run of
      at most 4300 digits. */
  function ParseTrimmed(t: string): (r: Option<int>)
    ensures r.Some? <==> WellFormedDigits(Unsigned(t)) && DigitCount(Unsigned(t)) <= MaxStrDigits
  {
    var digits := Unsigned(t);
    if !WellFormedDigits(digits) || DigitCount(digits) > MaxStrDigits then None
    else
      var v: int := DigitsValue(digits);
      Some(if |t| > 0 && t[0] == '-' then -v else v)
  }

  /** `int(raw)`: `None` where Python raises ValueError. */
  function ParseInt(raw: string): (r: Option<int>)
    ensures (forall k :: 0 <= k < |raw| ==> !IsDigit(raw[k])) ==> r.None?
    ensures r.Some? <==>
      WellFormedDigits(Unsigned(TrimEnd(TrimStart(raw)))) && DigitCount(Unsigned(TrimEnd(TrimStart(raw)))) <= MaxStrDigits
  {
    LastOfTrimmed(raw);
    ParseTrimmed(TrimEnd(TrimStart(raw)))
  }

  /** The last character of the trimmed text is a character of `raw`. */
  lemma LastOfTrimmed(raw: string)
    ensures
      var t1 := TrimStart(raw);
      var t := TrimEnd(t1);
      var j := |raw| - |t1| + |t| - 1;
      && (Unsigned(t) != [] ==> Unsigned(t)[|Unsigned(t)| - 1] == t[|t| - 1])
      && (t != [] ==> 0 <= j < |raw| && raw[j] == t[|t| - 1])
  {
    var t1 := TrimStart(raw);
    var t := TrimEnd(t1);
    var u := Unsigned(t);
    if u != [] {
      assert u[|u| - 1] == t[|t| - 1];
    }
    if t != [] {
      var off := |raw| - |t1|;
      assert t1 == raw[off..] && t == t1[..|t|];
      assert t[|t| - 1] == t1[|t| - 1] == raw[off + |t| - 1];
    }
  }

  /** `str(n)` for a non-negative integer. */
  function NatToString(n: nat): (r: string)
    ensures WellFormedDigits(r) && '_' !in r
    ensures forall i :: 0 <= i < |r| ==> IsDigit(r[i])
    ensures DigitsValue(r) == n
    ensures |r| <= n + 1
    decreases n
  {
    if n < 10 then [DigitChar(n)]
    else
      var init := NatToString(n / 10);
      var r := init + [DigitChar(n % 10)];
      assert r[..|r| - 1] == init;
      assert forall i :: 0 <= i < |r| - 1 ==> r[i] == init[i];
      r
  }

  /** `str(n)`. */
  function IntToString(n: int): string {
    if n < 0 then "-" + NatToString(-n) else NatToString(n)
  }

  function Magnitude(n: int): nat {
    if n < 0 then -n else n
  }

  /** `int(str(n)) == n` while `str(n)` has at most 4300 digits; `int`
      refuses longer digit runs. */
  lemma ParseShow(n: int)
    ensures |NatToString(Magnitude(n))| <= MaxStrDigits ==> ParseInt(IntToString(n)) == Some(n)
    ensures |NatToString(Magnitude(n))| > MaxStrDigits ==> ParseInt(IntToString(n)) == None
  {
    NumeralParts(n);
    var digits := NatToString(Magnitude(n));
    assert DigitCount(digits) == |digits|;
  }

  /** `str(n)` is left alone by `int`'s trimming, and its digit run is the
      numeral of n's magnitude, signed exactly when n is negative. */
  lemma NumeralParts(n: int)
    ensures
      var s := IntToString(n);
      && TrimEnd(TrimStart(s)) == s
      && Unsigned(s) == NatToString(Magnitude(n))
      && (|s| > 0 && s[0] == '-' <==> n < 0)
  {
    var s := IntToString(n);
    var digits := NatToString(Magnitude(n));
    assert s[|s| - 1] == digits[|digits| - 1];
    Untrimmed(s);
    if n < 0 {
      assert s[1..] == digits;
    } else {
      assert s == digits && IsDigit(s[0]);
    }
  }

  /** Text that neither starts nor ends with `int`'s whitespace is not trimmed. */
  lemma Untrimmed(s: string)
    requires s != [] && (s[0] == '-' || IsDigit(s[0])) && IsDigit(s[|s| - 1])
    ensures TrimEnd(TrimStart(s)) == s
  {
    assert !IntSpace(s[0]);
    assert TrimStart(s) == s;
    assert !IntSpace(s[|s| - 1]);
  }

  /** A leading run of `int`'s whitespace is trimmed and nothing more. */
  lemma {:induction false} TrimStartSpaces(pre: string, rest: string)
    requires forall i :: 0 <= i < |pre| ==> IntSpace(pre[i])
    requires rest == [] || !IntSpace(rest[0])
    ensures TrimStart(pre + rest) == rest
    decreases |pre|
  {
    if pre == [] {
      assert pre + rest == rest;
    } else {
      assert (pre + rest)[1..] == pre[1..] + rest;
      TrimStartSpaces(pre[1..], rest);
    }
  }

  /** A trailing run of `int`'s whitespace is trimmed and nothing more. */
  lemma {:induction false} TrimEndSpaces(rest: string, post: string)
    requires forall i :: 0 <= i < |post| ==> IntSpace(post[i])
    requires rest == [] || !IntSpace(rest[|rest| - 1])
    ensures TrimEnd(rest + post) == rest
    decreases |post|
  {
    if post == [] {
      assert rest + post == rest;
    } else {
      var all := rest + post;
      assert all[..|all| - 1] == rest + post[..|post| - 1];
      TrimEndSpaces(rest, post[..|post| - 1]);
    }
  }

  /** `int` reads a numeral surrounded by its whitespace as the numeral
      alone: `int(" 5\n") == 5`. */
  lemma ParseIgnoresSpaces(pre: string, n: int, post: string)
    requires forall i :: 0 <= i < |pre| ==> IntSpace(pre[i])
    requires forall i :: 0 <= i < |post| ==> IntSpace(post[i])
    ensures ParseInt(pre + IntToString(n) + post) == ParseInt(IntToString(n))
    ensures |NatToString(Magnitude(n))| <= MaxStrDigits ==> ParseInt(pre + IntToString(n) + post) == Some(n)
  {
    var s := IntToString(n);
    NumeralParts(n);
    ParseShow(n);
    var digits := NatToString(Magnitude(n));
    assert s[|s| - 1] == digits[|digits| - 1];
    assert !IntSpace(s[0]) && !IntSpace(s[|s| - 1]);
    assert pre + s + post == pre + (s + post);
    assert (s + post)[0] == s[0];
    TrimStartSpaces(pre, s + post);
    TrimEndSpaces(s, post);
    assert TrimEnd(TrimStart(pre + s + post)) == s == TrimEnd(TrimStart(s));
  }

  /** `int` does not trim the separator U+001C, although `str.isspace`
      accepts it. */
  lemma SeparatorKept()
    ensures ParseInt("\U{1C}5") == None
  {
    var t := "\U{1C}5";
    assert !IntSpace(t[0]) && !IntSpace(t[1]);
    assert TrimStart(t) == t && TrimEnd(t) == t;
    assert Unsigned(t) == t;
  }

  /** `int` refuses a run of 4301 digits. */
  lemma TooManyDigits()
    ensures ParseInt(seq(MaxStrDigits + 1, i => '1')) == None
  {
    var ones := seq(MaxStrDigits + 1, i => '1');
    assert TrimStart(ones) == ones;
    assert TrimEnd(ones) == ones;
    assert Unsigned(ones) == ones;
    assert DigitCount(ones) == MaxStrDigits + 1;
  }
}

=== FILE: tech_crew.dfy ===
/** The technical crew: ten agents, none with internet access, and ten tasks
    from product scoping to the final technical review. */
module TechCrew {
  import opened Wrappers
  import opened Tools
  import opened Crews

  const Roles: seq<Role> := [
    Role("cto", [RepoRead]),
    Role("product_owner", [WriteArtifact]),
    Role("software_architect", [WriteArtifact]),
    Role("tech_lead", [WriteArtifact]),
    Role("backend_developer", [WriteArtifact, RepoRead]),
    Role("frontend_developer", [WriteArtifact, RepoRead]),
    Role("devops_engineer", [WriteArtifact]),
    Role("qa_tester", [WriteArtifact, RunTests, RunLint]),
    Role("ui_designer", [WriteArtifact]),
    Role("ux_designer", [WriteArtifact])
  ]

  const TaskKeys: seq<string> := [
    "product_scoping",
    "ux_flows",
    "ui_specs",
    "architecture",
    "implementation_plan",
    "backend_implementation",
    "frontend_implementation",
    "devops_pipeline_setup",
    "qa_validation",
    "final_technical_review"
  ]

  const Spec: CrewSpec := CrewSpec(Roles, [], TaskKeys)

  /** `_build_agents`. */
  function BuildAgents(agents: map<string, AgentCfg>): (r: Result<Roster, CrewError>)
    ensures r.Success? <==> forall i :: 0 <= i < |Roles| ==> AgentConfigured(agents, Roles[i].name)
    ensures r.Success? ==> Names(r.value) == [
      "cto", "product_owner", "software_architect", "tech_lead", "backend_developer",
      "frontend_developer", "devops_engineer", "qa_tester", "ui_designer", "ux_designer"]
    ensures r.Success? ==> ToolLists(r.value) == [
      [RepoRead],
      [WriteArtifact],
      [WriteArtifact],
      [WriteArtifact],
      [WriteArtifact, RepoRead],
      [WriteArtifact, RepoRead],
      [WriteArtifact],
      [WriteArtifact, RunTests, RunLint],
      [WriteArtifact],
      [WriteArtifact]]
    ensures r.Success? ==> forall i :: 0 <= i < |r.value| ==> NoInternet(r.value[i].1.tools)
  {
    RolesShape();
    RolesOffline();
    BuildRoster(agents, Roles, [])
  }

  /** Neither internet tool is in `tools`. */
  predicate NoInternet(tools: seq<Tool>) {
    Tool.InternetSearch !in tools && Tool.ReadWebpage !in tools
  }

  lemma RolesShape()
    ensures RoleNames(Roles) == [
      "cto", "product_owner", "software_architect", "tech_lead", "backend_developer",
      "frontend_developer", "devops_engineer", "qa_tester", "ui_designer", "ux_designer"]
    ensures RoleTools([], Roles) == [
      [RepoRead],
      [WriteArtifact],
      [WriteArtifact],
      [WriteArtifact],
      [WriteArtifact, RepoRead],
      [WriteArtifact, RepoRead],
      [WriteArtifact],
      [WriteArtifact, RunTests, RunLint],
      [WriteArtifact],
      [WriteArtifact]]
  {
    assert forall i :: 0 <= i < |Roles| ==> [] + Roles[i].tools == Roles[i].tools;
  }

  lemma RolesOffline()
    ensures forall i :: 0 <= i < |Roles| ==> NoInternet([] + Roles[i].tools)
  {
    assert forall i :: 0 <= i < |Roles| ==> [] + Roles[i].tools == Roles[i].tools;
  }
}

=== FILE: template.dfy ===
/** Rendering of a task description template with Python's
    `template.format(ceo_request=request)`.

    The only keyword supplied is `ceo_request`, so a replacement field
    `{ceo_request}` is substituted, `{{` and `}}` stand for literal braces, and
    every other replacement field makes `format` raise. */
module Template {
  import opened Wrappers

  /** The keyword every crew passes to `format`. */
  const FieldName: string := "ceo_request"

  datatype FormatError =
    | SingleCloseBrace           // ValueError: Single '}' encountered in format string
    | UnclosedField              // ValueError: expected '}' before end of string
    | UnknownField(name: string) // KeyError / IndexError for a field other than ceo_request

  /** Index of the first `}` in `s`, if there is one. */
  function FindClose(s: string): (r: Option<nat>)
    ensures r.Some? ==> r.value < |s| && s[r.value] == '}' && '}' !in s[..r.value]
    ensures r.None? ==> '}' !in s
    decreases |s|
  {
    if |s| == 0 then None
    else if s[0] == '}' then Some(0)
    else match FindClose(s[1..]) {
      case None => None
      case Some(k) =>
        assert s[..k + 1] == [s[0]] + s[1..][..k];
        Some(k + 1)
    }
  }

  /** The first `}` is the one `FindClose` reports. */
  lemma {:induction false} FindCloseFirst(s: string, k: nat)
    requires k < |s| && s[k] == '}' && '}' !in s[..k]
    ensures FindClose(s) == Some(k)
    decreases k
  {
    if k > 0 {
      assert s[0] == s[..k][0];
      assert s[1..][..k - 1] == s[..k][1..];
      FindCloseFirst(s[1..], k - 1);
    }
  }

  /** `t.format(ceo_request=value)`, scanning left to right so that the first
      malformed or unknown field is the one reported. */
  function Format(t: string, value: string): (r: Result<string, FormatError>)
    ensures '{' !in t && '}' !in t ==> r == Success(t)
    decreases |t|
  {
    if |t| == 0 then Success("")
    else if t[0] == '{' then
      if |t| >= 2 && t[1] == '{' then
        var rest :- Format(t[2..], value);
        Success("{" + rest)
      else
        match FindClose(t[1..]) {
          case None => Failure(UnclosedField)
          case Some(k) =>
            var name := t[1..k + 1];
            if name == FieldName then
              var rest :- Format(t[k + 2..], value);
              Success(value + rest)
            else
              Failure(UnknownField(name))
        }
    else if t[0] == '}' then
      if |t| >= 2 && t[1] == '}' then
        var rest :- Format(t[2..], value);
        Success("}" + rest)
      else
        Failure(SingleCloseBrace)
    else
      var rest :- Format(t[1..], value);
      assert '{' !in t && '}' !in t ==> '{' !in t[1..] && '}' !in t[1..];
      assert [t[0]] + t[1..] == t;
      Success([t[0]] + rest)
  }

  /** A description template as its author meant it: literal text interleaved
      with the request. */
  datatype Piece = Literal(text: string) | Request

  /** The text a template stands for once the request is filled in. */
  function Render(pieces: seq<Piece>, value: string): string
    decreases |pieces|
  {
    if |pieces| == 0 then ""
    else
      (match pieces[0] {
        case Literal(text) => text
        case Request => value
      }) + Render(pieces[1..], value)
  }

  /** Literal text written in `format` syntax: braces doubled. */
  function Escape(s: string): (r: string)
    ensures '{' !in s && '}' !in s ==> r == s
    decreases |s|
  {
    if |s| == 0 then ""
    else EscapeChar(s[0]) + Escape(s[1..])
  }

  /** The template source that stands for `pieces`. */
  function Quote(pieces: seq<Piece>): string
    decreases |pieces|
  {
    if |pieces| == 0 then ""
    else
      (match pieces[0] {
        case Literal(text) => Escape(text)
        case Request => "{" + FieldName + "}"
      }) + Quote(pieces[1..])
  }

  /** `r` with `s` put in front of its text, failures passed through. */
  function Prefixed(s: string, r: Result<string, FormatError>): Result<string, FormatError> {
    if r.Success? then Success(s + r.value) else r
  }

  /** `{{` is a literal `{`. */
  lemma FormatOpenOpen(tail: string, value: string)
    ensures Format("{{" + tail, value) == Prefixed("{", Format(tail, value))
  {
    assert ("{{" + tail)[2..] == tail;
  }

  /** `}}` is a literal `}`. */
  lemma FormatCloseClose(tail: string, value: string)
    ensures Format("}}" + tail, value) == Prefixed("}", Format(tail, value))
  {
    assert ("}}" + tail)[2..] == tail;
  }

  /** A character other than a brace is copied. */
  lemma FormatPlain(c: char, tail: string, value: string)
    requires c != '{' && c != '}'
    ensures Format([c] + tail, value) == Prefixed([c], Format(tail, value))
  {
    assert ([c] + tail)[1..] == tail;
  }

  lemma PrefixedPrefixed(a: string, b: string, r: Result<string, FormatError>)
    ensures Prefixed(a, Prefixed(b, r)) == Prefixed(a + b, r)
  {
    if r.Success? {
      assert a + (b + r.value) == (a + b) + r.value;
    }
  }

  /** How one literal character is written in `format` syntax. */
  function EscapeChar(c: char): string {
    if c == '{' then "{{" else if c == '}' then "}}" else [c]
  }

  /** Formatting an escaped character reproduces it. */
  lemma FormatEscapeChar(c: char, tail: string, value: string)
    ensures Format(EscapeChar(c) + tail, value) == Prefixed([c], Format(tail, value))
  {
    if c == '{' {
      FormatOpenOpen(tail, value);
    } else if c == '}' {
      FormatCloseClose(tail, value);
    } else {
      FormatPlain(c, tail, value);
    }
  }

  /** Escaped literal text in front of the rest of a template is reproduced
      verbatim and does not change whether formatting fails. */
  lemma {:induction false} FormatEscaped(s: string, rest: string, value: string)
    ensures Format(Escape(s) + rest, value) == Prefixed(s, Format(rest, value))
    decreases |s|
  {
    var r := Format(rest, value);
    if |s| > 0 {
      var tail := Escape(s[1..]) + rest;
      assert Escape(s) + rest == EscapeChar(s[0]) + tail;
      FormatEscapeChar(s[0], tail, value);
      FormatEscaped(s[1..], rest, value);
      PrefixedPrefixed([s[0]], s[1..], r);
      assert [s[0]] + s[1..] == s;
    } else {
      assert Escape(s) + rest == rest;
      if r.Success? {
        assert s + r.value == r.value;
      }
    }
  }

  /** A `{ceo_request}` field in front of the rest of a template becomes the
      request. */
  lemma FormatField(rest: string, value: string)
    ensures Format("{" + FieldName + "}" + rest, value) ==
Prefixed(value, Format(rest, value))
  {
    var t := "{" + FieldName + "}" + rest;
    var inner := t[1..];
    assert inner == FieldName + "}" + rest;
    assert inner[11] == '}';
    assert '}' !in inner[..11] by {
      assert inner[..11] == FieldName;
    }
    FindCloseFirst(inner, 11);
    assert t[1..12] == FieldName;
    assert t[13..] == rest;
  }

  /** Formatting the source of a template renders it: the request is inserted
      verbatim (its own braces are not reinterpreted) and literal text is
      reproduced. */
  lemma {:induction false} FormatQuote(pieces: seq<Piece>, value: string)
    ensures Format(Quote(pieces), value) == Success(Render(pieces, value))
    decreases |pieces|
  {
    if |pieces| == 0 {
    } else {
      FormatQuote(pieces[1..], value);
      match pieces[0] {
        case Literal(text) =>
          FormatEscaped(text, Quote(pieces[1..]), value);
        case Request =>
          FormatField(Quote(pieces[1..]), value);
          assert Quote(pieces) == "{" + FieldName + "}" + Quote(pieces[1..]);
      }
    }
  }
}

=== FILE: text.dfy ===
/** The handful of Python string operations the program relies on:
    `str.strip`, `sep.join`, `str.split(sep)`, `str.startswith` and the
    `in` substring test. Strings are sequences of Unicode scalar values,
    which is what Python's `len` and slicing count. */
module Text {

  /** Python's `str.isspace` for one character. */
  predicate IsSpace(c: char) {
    || ('\t' <= c <= '\r')
    || ('\U{1C}' <= c <= '\U{1F}')
    || c == ' '
    || c == '\U{85}'
    || c == '\U{A0}'
    || c == '\U{1680}'
    || ('\U{2000}' <= c <= '\U{200A}')
    || c == '\U{2028}'
    || c == '\U{2029}'
    || c == '\U{202F}'
    || c == '\U{205F}'
    || c == '\U{3000}'
  }

  /** `s.lstrip()`: drops the leading whitespace run. */
  function LStrip(s: string): (r: string)
    ensures |r| <= |s| && r == s[|s| - |r|..]
    ensures forall k :: 0 <= k < |s| - |r| ==> IsSpace(s[k])
    ensures r != [] ==> !IsSpace(r[0])
    decreases |s|
  {
    if s != [] && IsSpace(s[0]) then LStrip(s[1..]) else s
  }

  /** `s.rstrip()`: drops the trailing whitespace run. */
  function RStrip(s: string): (r: string)
    ensures |r| <= |s| && r == s[..|r|]
    ensures forall k :: |r| <= k < |s| ==> IsSpace(s[k])
    ensures r != [] ==> !IsSpace(r[|r| - 1])
    decreases |s|
  {
    if s != [] && IsSpace(s[|s| - 1]) then RStrip(s[..|s| - 1]) else s
  }

  /** Where the text left by `strip()` begins. */
  function StripStart(s: string): nat {
    |s| - |LStrip(s)|
  }

  /** `s.strip()`. What it keeps is stated by `StripShape` and `StripBlank`,
      so that callers pay for those facts only where they need them. */
  function Strip(s: string): (r: string)
    ensures |r| <= |s|
  {
    RStrip(LStrip(s))
  }

  /** `strip()` keeps one contiguous run of `s` whose first and last
      characters are not whitespace, and drops whitespace on both sides. */
  lemma StripShape(s: string)
    ensures StripStart(s) + |Strip(s)| <= |s|
    ensures Strip(s) == s[StripStart(s)..StripStart(s) + |Strip(s)|]
    ensures forall k :: 0 <= k < StripStart(s) ==> IsSpace(s[k])
    ensures forall k :: StripStart(s) + |Strip(s)| <= k < |s| ==> IsSpace(s[k])
    ensures Strip(s) != [] ==> !IsSpace(Strip(s)[0]) && !IsSpace(Strip(s)[|Strip(s)| - 1])
  {
    StripKeepsRun(s);
    StripDropsTrailing(s);
    StripEnds(s);
  }

  lemma {:induction false} StripKeepsRun(s: string)
    ensures Strip(s) == s[StripStart(s)..StripStart(s) + |Strip(s)|]
  {
    var l := LStrip(s);
    SliceOfSuffix(s, StripStart(s), |RStrip(l)|);
  }

  lemma {:induction false} StripDropsTrailing(s: string)
    ensures forall k :: StripStart(s) + |Strip(s)| <= k < |s| ==> IsSpace(s[k])
  {
    var start := StripStart(s);
    var l := LStrip(s);
    var r := RStrip(l);
    forall k | start + |r| <= k < |s|
      ensures IsSpace(s[k])
    {
      var i := k - start;
      assert |r| <= i < |l|;
      assert IsSpace(l[i]);
      assert s[k] == l[i];
    }
  }

  lemma {:induction false} StripEnds(s: string)
    ensures Strip(s) != [] ==> !IsSpace(Strip(s)[0]) && !IsSpace(Strip(s)[|Strip(s)| - 1])
  {
    var l := LStrip(s);
    var r := RStrip(l);
    assert r != [] ==> r[0] == l[0];
  }

  lemma {:induction false} SliceOfSuffix(s: string, i: nat, n: nat)
    requires i + n <= |s|
    ensures s[i..][..n] == s[i..i + n]
  {
  }

  /** A slice of the text after a prefix is a slice of the whole. */
  lemma {:induction false} SliceAfter(x: string, y: string, i: nat, k: nat)
    requires i <= k <= |y|
    ensures (x + y)[|x| + i..|x| + k] == y[i..k]
  {
  }

  /** `strip()` leaves nothing exactly when every character is whitespace. */
  lemma StripBlank(s: string)
    ensures Strip(s) == [] <==> forall k :: 0 <= k < |s| ==> IsSpace(s[k])
  {
    StripShape(s);
  }

  /** A string without surrounding whitespace is its own `strip()`. */
  lemma StripNoop(s: string)
    requires s == [] || (!IsSpace(s[0]) && !IsSpace(s[|s| - 1]))
    ensures Strip(s) == s
  {
  }

  /** `strip()` is idempotent. */
  lemma StripIdempotent(s: string)
    ensures Strip(Strip(s)) == Strip(s)
  {
    StripShape(s);
    StripNoop(Strip(s));
  }

  predicate StartsWith(s: string, prefix: string) {
    |prefix| <= |s| && s[..|prefix|] == prefix
  }

  /** Python's `sub in s` for strings. */
  predicate Contains(s: string, sub: string)
    decreases |s|
  {
    StartsWith(s, sub) || (|s| > 0 && Contains(s[1..], sub))
  }

  /** `sep.join(parts)`. */
  function Join(sep: string, parts: seq<string>): (r: string)
    decreases |parts|
  {
    if |parts| == 0 then ""
    else if |parts| == 1 then parts[0]
    else parts[0] + sep + Join(sep, parts[1..])
  }

  /** Where `parts[k]` starts inside `Join(sep, parts)`. */
  function Offset(sep: string, parts: seq<string>, k: nat): nat
    requires k <= |parts|
    decreases k
  {
    if k == 0 then 0 else |parts[0]| + |sep| + Offset(sep, parts[1..], k - 1)
  }

  /** Every part sits, verbatim, at its offset in the joined text. */
  lemma {:induction false} JoinAt(sep: string, parts: seq<string>, k: nat)
    requires k < |parts|
    ensures Offset(sep, parts, k) + |parts[k]| <= |Join(sep, parts)|
    ensures Join(sep, parts)[Offset(sep, parts, k)..Offset(sep, parts, k) + |parts[k]|] == parts[k]
    decreases k
  {
    var j := Join(sep, parts);
    if k == 0 {
      if |parts| > 1 {
        assert j == parts[0] + (sep + Join(sep, parts[1..]));
      }
    } else {
      var rest := parts[1..];
      JoinAt(sep, rest, k - 1);
      var o := Offset(sep, rest, k - 1);
      var p := |parts[0]| + |sep|;
      assert j == (parts[0] + sep) + Join(sep, rest);
      SliceAfter(parts[0] + sep, Join(sep, rest), o, o + |rest[k - 1]|);
    }
  }

  /** Consecutive offsets are separated by the part and one separator. */
  lemma {:induction false} OffsetNext(sep: string, parts: seq<string>, k: nat)
    requires k < |parts|
    ensures Offset(sep, parts, k + 1) == Offset(sep, parts, k) + |parts[k]| + |sep|
    decreases k
  {
    if k > 0 {
      OffsetNext(sep, parts[1..], k - 1);
    }
  }

  /** Parts appear in order: a later part starts after an earlier part and
      the separator that follows it. */
  lemma {:induction false} OffsetIncreasing(sep: string, parts: seq<string>, i: nat, j: nat)
    requires i < j < |parts|
    ensures Offset(sep, parts, i) + |parts[i]| + |sep| <= Offset(sep, parts, j)
    decreases j - i
  {
    OffsetNext(sep, parts, i);
    if i + 1 < j {
      OffsetIncreasing(sep, parts, i + 1, j);
    }
  }

  /** `s.split(c)` for a one-character separator: never empty, and no piece
      contains the separator. */
  function Split(s: string, c: char): (r: seq<string>)
    ensures |r| >= 1
    ensures forall i :: 0 <= i < |r| ==> c !in r[i]
    decreases |s|
  {
    if |s| == 0 then [""]
    else if s[0] == c then [""] + Split(s[1..], c)
    else
      var rest := Split(s[1..], c);
      [[s[0]] + rest[0]] + rest[1..]
  }

  /** Joining the pieces of a split gives back the original text. */
  lemma {:induction false} JoinSplit(s: string, c: char)
    ensures Join([c], Split(s, c)) == s
    decreases |s|
  {
    if |s| > 0 {
      var rest := Split(s[1..], c);
      JoinSplit(s[1..], c);
      if s[0] == c {
        assert Split(s, c)[1..] == rest;
      } else {
        var r := Split(s, c);
        if |rest| == 1 {
          assert r == [[s[0]] + rest[0]];
        } else {
          assert r[1..] == rest[1..];
          assert Join([c], rest) == rest[0] + [c] + Join([c], rest[1..]);
        }
      }
    }
  }

  /** Splitting text with no separator yields the text itself. */
  lemma {:induction false} SplitSingle(a: string, c: char)
    requires c !in a
    ensures Split(a, c) == [a]
    decreases |a|
  {
    if |a| > 0 {
      SplitSingle(a[1..], c);
      assert [a[0]] + a[1..] == a;
    }
  }

  /** Splitting stops at the first separator. */
  lemma {:induction false} SplitFirst(a: string, c: char, b: string)
    requires c !in a
    ensures Split(a + [c] + b, c) == [a] + Split(b, c)
    decreases |a|
  {
    var s := a + [c] + b;
    if |a| == 0 {
      assert s[1..] == b;
    } else {
      assert s[1..] == a[1..] + [c] + b;
      SplitFirst(a[1..], c, b);
      assert [a[0]] + a[1..] == a;
    }
  }

  /** Splitting a join of separator-free parts recovers the parts. */
  lemma {:induction false} SplitJoin(parts: seq<string>, c: char)
    requires |parts| >= 1
    requires forall i :: 0 <= i < |parts| ==> c !in parts[i]
    ensures Split(Join([c], parts), c) == parts
    decreases |parts|
  {
    if |parts| == 1 {
      SplitSingle(parts[0], c);
    } else {
      SplitJoin(parts[1..], c);
      SplitFirst(parts[0], c, Join([c], parts[1..]));
      assert [parts[0]] + parts[1..] == parts;
    }
  }

  /** ASCII lower-casing; the program only lower-cases text it compares against
      ASCII literals, where this agrees with Python's `str.lower`. */
  function LowerAscii(s: string): (r: string)
    ensures |r| == |s|
    ensures forall i :: 0 <= i < |s| ==> r[i] == LowerChar(s[i])
  {
    seq(|s|, i requires 0 <= i < |s| => LowerChar(s[i]))
  }

  function LowerChar(c: char): char {
    if 'A' <= c <= 'Z' then (c as int + 32) as char else c
  }
}

=== FILE: tools.dfy ===
/** The tool instances agents are given. Their behaviour is modelled in the
    modules named after their source files; a crew only needs their identity. */
module Tools {

  datatype Tool =
    | WriteArtifact
    | RepoRead
    | RunTests
    | RunLint
    | InternetSearch
    | ReadWebpage
    | ContractReview
    | ComplianceChecklist
    | ClaimsCheck
    | CostModel
  {
    /** The `name` attribute each tool class declares. */
    function Name(): string {
      match this
      case WriteArtifact => "write_artifact"
      case RepoRead => "repo_read"
      case RunTests => "run_tests"
      case RunLint => "run_lint"
      case InternetSearch => "internet_search"
      case ReadWebpage => "read_webpage"
      case ContractReview => "contract_review"
      case ComplianceChecklist => "compliance_checklist"
      case ClaimsCheck => "claims_check"
      case CostModel => "cost_model"
    }

    predicate IsInternetTool() {
      InternetSearch? || ReadWebpage?
    }
  }
}

=== FILE: wrappers.dfy ===
/** Two small containers for the program's partial operations. `Option` is a
    value that may be missing: a YAML key that is not there, an environment
    variable that is unset, text that `int()` rejects. `Result` is what a call
    that can raise gives back: its value, or the error it raised. */
module Wrappers {

  datatype Option<+T> = None | Some(value: T) {

    /** Like `d.get(key, fallback)`: the value when present, else `fallback`. */
    function ValueOr(fallback: T): (r: T)
      ensures Some? ==> r == value
      ensures None? ==> r == fallback
    {
      if Some? then value else fallback
    }
  }

  /** `Success` carries a value, `Failure` the raised error. The three members
      below are the hooks Dafny's `:-` operator calls, so that a `Failure`
      returns early from the enclosing function, as an exception would. */
  datatype Result<+T, +E> = Success(value: T) | Failure(error: E) {

    predicate IsFailure() {
      Failure?
    }

    /** The same error, re-typed for the caller's result. */
    function PropagateFailure<U>(): Result<U, E>
      requires Failure?
    {
      Failure(error)
    }

    function Extract(): T
      requires Success?
    {
      value
    }
  }
}
